=== FILE: README.md ===
# Ray tracer core in Dafny

This project models the arithmetic core of a small Ruby ray tracer. It covers the following:

- **Colours.** Integer RGB triples, parsed from `#rrggbb` text or from an array. They print back as hex and combine channel by channel under `+` and `*`, clamped at full intensity.
- **Materials.** A base colour that a texture overrides, plus the helper that wraps texture coordinates so that a texture repeats.
- **Spheres and planes.** Ray intersection, the surface normal and planar texture coordinates.
- **The scene.** The aspect ratio, the map from a pixel to a camera ray, the closest-hit search, and the per-light shadow test with its clamped Lambert channel formula.

Ruby `Float`s are exact `real`s here. `Vector` is a `Vec3` datatype. `Math.sqrt` is a function parameter `sqrt` constrained by `IsSqrt`: it returns a non-negative root of every non-negative number. `Vector#normalize` returns `None` where Ruby raises on a zero vector, and so does each axis of the texture wrap where `Float#%` raises ZeroDivisionError on a zero size. The whole wrap, `Materials.ToAbsoluteCoordinates`, is likewise `None` when either size is zero. The render's own errors, a zero light direction (`ZeroVector`) and the sphere's `acos` domain error (`TextureDomain`), become a `Failure`, and so do the errors of the colour constructors and operators.

The modules are `Wrappers`, `Vectors`, `Colors`, `Materials`, `Spheres`, `Planes` and `Scenes`. Each has its own file.

Where the code's behaviour differs from what it evidently intends, the model follows the code:

- A sphere intersection returns the nearer root `adj - side3` even when it is negative, that is, when the ray starts inside the sphere (lib/models/sphere.rb:36-38). The doc comment promises the "distance of nearest point of intersection", which suggests a forward distance.
- `closest_intersection_of` keeps every non-nil distance, negative ones included.
- A sphere's `texture_coordinates` passes `hit_vec[1] - @radius` to `Math.acos` without dividing by the radius (lib/models/sphere.rb:48). On the surface that argument lies in `[-2r, 0]`, so `acos` raises `Math::DomainError` at every point lower than `radius - 1` above the centre, such as the bottom of a unit sphere (`Spheres.UnitSphereBottomRaises`). The render evaluates this lookup once per light (lib/scene.rb:77), so a lit pixel that sees such a point aborts the render. The model follows the code: `Scenes.Pixel` fails with `TextureDomain` there.
- The sphere's default material, `Material.new('white')`, passes a positional argument to a constructor that takes only keywords. The model has no default material for spheres or planes.

## Model

| member | source | states |
|---|---|---|
| Colors.FromChannels | lib/color.rb:14-15 | An array argument fails with a missing channel exactly when it has fewer than three entries. Otherwise the channels are its first three entries. |
| Colors.ChannelsRoundTrip | lib/color.rb:15-22 | Building a colour from its own `rgb` gives the colour back, and `rgb` returns what the array held. |
| Colors.UnitsOfChannels | lib/color.rb:17 | Each unit times 255 is its channel, in red, green, blue order. For byte channels every unit lies in [0, 1]. |
| Colors.Plus | lib/color.rb:28-40 | `+` fails with an unsupported operand exactly when the operand is neither a Float nor a Color, an Integer included. Otherwise it dispatches to the Float or Color branch. |
| Colors.PlusFloat | lib/color.rb:30-31 | Adding a float never takes a channel above 255. A non-negative float keeps byte colours byte colours. |
| Colors.PlusFloatChannels | lib/color.rb:30-39 | Each channel becomes `trunc(min(channel + 255*f, 255))`. |
| Colors.PlusColor | lib/color.rb:32-39 | Adding colours is integer addition capped at 255, channel by channel. |
| Colors.PlusBlackIdentity | lib/color.rb:28-40 | Adding black changes no colour whose channels are at most 255. |
| Colors.PlusCommutative | lib/color.rb:32-34 | Colour addition does not depend on operand order. |
| Colors.Times | lib/color.rb:42-54 | `*` fails exactly when the operand is neither a Float nor a Color. Otherwise it dispatches to the matching branch. |
| Colors.TimesFloat | lib/color.rb:44-53 | Scaling never takes a channel above 255. It keeps byte colours bytes for non-negative factors, and a zero factor gives black. |
| Colors.TimesFloatChannels | lib/color.rb:44-53 | Each channel becomes `trunc(min(channel × f, 255))`. |
| Colors.TimesColor | lib/color.rb:46-53 | On byte colours every channel is `floor(a*b/255)`. |
| Colors.TimesBelowFactors | lib/color.rb:46-48 | A product channel never exceeds either factor's channel. |
| Colors.TimesWhiteIdentity | lib/color.rb:42-54 | Multiplying a byte colour by white gives the colour back. |
| Colors.TimesOneIdentity | lib/color.rb:44-45 | Multiplying a byte colour by the float 1.0 gives the colour back. |
| Colors.Trunc | lib/color.rb:39 | `Float#to_i` rounds toward zero: the result is the integer part, below the float for positives and above it for negatives. |
| Colors.New | lib/color.rb:8-16 | A String argument is parsed as hex text. Any other argument is read as an array of channels. |
| Colors.Format02x | lib/color.rb:57 | `%02x` prints at least two lowercase hex digits whose value is the number, with a leading zero only when there are exactly two. |
| Colors.Format02xUnique | lib/color.rb:57 | Those properties pin the text: any numeral that has them is the one `%02x` prints. |
| Colors.Format02xByte | lib/color.rb:57 | For a byte, `%02x` prints exactly the high and low nibble digits. |
| Colors.ToHex | lib/color.rb:57 | The hex numeral has at least one lowercase digit and starts with `0` only for zero. |
| Colors.ToHexValue | lib/color.rb:57 | Reading the minimal hex digits of `n` gives `n` back. |
| Colors.Hex | lib/color.rb:56-58 | The text starts with the sigil. For byte colours it is followed by exactly six characters: two digits encoding red, then green, then blue. |
| Colors.HexDefault | lib/color.rb:56-58 | With the default sigil the text is seven characters, `#` and six lowercase hex digits. |
| Colors.RemoveSigils | lib/color.rb:11 | `tr('#', '')` leaves no `#`, and what is left of hex text is all hex digits. |
| Colors.RemoveSigilsExtremes | lib/color.rb:11 | Text without `#` is unchanged, and text made only of `#` vanishes. |
| Colors.PackHex | lib/color.rb:11 | `pack('H*')` yields half as many bytes as digits, rounded up, each a byte. |
| Colors.PackHexBytes | lib/color.rb:11 | Byte `k` is the value of digit pair `2k, 2k+1`. A lone final digit becomes the high nibble. |
| Colors.FromHexString | lib/color.rb:9-17 | Parsing fails with a missing channel exactly when fewer than five digits remain after removing `#`. Otherwise red and green are the first two digit pairs and blue is the third, with a lone fifth digit read as its high nibble. |
| Colors.HexRoundTrip | lib/color.rb:8-58 | Parsing the hex text of a byte colour, under any all-`#` sigil, gives the colour back. |
| Materials.NewMaterial | lib/material.rb:13-19 | Construction succeeds exactly when the colour argument parses. It then stores the parsed colour and every other argument unchanged. |
| Materials.DefaultMaterial | lib/material.rb:13-19 | With every argument defaulted the material is white, with albedo 1.0, no texture, reflectivity 0.0 and no refraction. |
| Materials.DefaultColorIsWhite | lib/material.rb:13-14 | The default colour text `#ffffff` parses to white. |
| Materials.ColorAt | lib/material.rb:21-27 | The colour at a point is the texture's colour there when a texture is set, and the base colour otherwise. |
| Materials.TextureOverridesColor | lib/material.rb:21-24 | With a texture, the base colour has no effect on `color_at`. |
| Materials.UntexturedIsUniform | lib/material.rb:21-27 | Without a texture, every point has the base colour. |
| Materials.FloorMod | lib/material.rb:34 | Ruby's `Float#%` takes the divisor's sign and equals `a - b*floor(a/b)`. |
| Materials.WrapAxis | lib/material.rb:33-35 | A zero size gives no value, standing for the ZeroDivisionError of `Float#%`. A positive size gives a value in [0, size), for negative inputs too. |
| Materials.ToAbsoluteCoordinates | lib/material.rb:32-42 | The call fails as a whole exactly when the width or the height is zero. Otherwise each coordinate is its axis wrapped on its own, and lies in [0, size) for positive sizes. |
| Materials.WrapInsideUnit | lib/material.rb:33-35 | A coordinate in [0, 1) maps to coordinate times size, untouched by the wrap. |
| Materials.WrapPeriodic | lib/material.rb:29-35 | Shifting a coordinate by any integer does not change the wrapped value. |
| Materials.AbsolutePeriodic | lib/material.rb:32-41 | The two axes wrap independently, each with period one. |
| Vectors.Magnitude | lib/models/plane.rb:40 | The magnitude is non-negative, its square is the vector's dot with itself, and it is zero exactly for the zero vector. |
| Vectors.Normalize | lib/scene.rb:51 | Normalising fails exactly on the zero vector. Otherwise it gives a unit vector pointing the same way. |
| Spheres.NearestRoot | lib/models/sphere.rb:29-38 | There is a hit exactly when `opp <= radius²` and the far root `adj + side3` is non-negative. The value is then the near root `adj - side3`, negative or not. |
| Spheres.Intersection | lib/models/sphere.rb:24-39 | For a unit direction, a returned distance puts the point on the sphere, and it is no larger than any other distance at which the ray meets the sphere. |
| Spheres.RootsOnSphere | lib/models/sphere.rb:25-34 | For a unit direction, the ray meets the sphere exactly at `adj - side3` and `adj + side3`. |
| Spheres.HitIffForwardPoint | lib/models/sphere.rb:24-39 | For a unit direction, there is a hit exactly when some point at or ahead of the ray origin lies on the sphere. |
| Spheres.InsideGivesNegative | lib/models/sphere.rb:36-38 | From strictly inside the sphere, the result is a hit at a negative distance. |
| Spheres.AimedAtCentre | lib/models/sphere.rb:24-39 | A ray from outside aimed at the centre hits at the distance to the centre minus the radius. |
| Spheres.SurfaceNormal | lib/models/sphere.rb:41-43 | The normal fails exactly at the centre. Otherwise it has unit length. |
| Spheres.NormalOnSurface | lib/models/sphere.rb:41-43 | At a point on the sphere, the normal is `(hit - centre) / radius`. |
| Planes.Intersection | lib/models/plane.rb:23-32 | Below the epsilon, `normal·direction` gives no hit. A returned distance is positive and puts the point on the plane. |
| Planes.HitIffForwardPoint | lib/models/plane.rb:23-32 | There is a hit exactly when the epsilon test passes and some point strictly ahead lies on the plane. That point is unique and its distance is the one returned. |
| Planes.SurfaceNormal | lib/models/plane.rb:34-36 | The normal is the reversed plane normal, whatever the hit point. |
| Planes.NormalFacesRay | lib/models/plane.rb:24-36 | Every ray that hits the plane has its direction against the surface normal by at least the epsilon. |
| Planes.XAxisChoice | lib/models/plane.rb:39-40 | The first texture axis is `normal × (0,0,1)`, falling back to `normal × (0,1,0)` exactly when the first is the zero vector. |
| Planes.TextureAxes | lib/models/plane.rb:39-41 | Both texture axes are perpendicular to the normal and to each other. The first is non-zero for a non-zero normal. |
| Planes.TextureCoordinates | lib/models/plane.rb:38-46 | The plane origin has texture coordinates (0, 0). |
| Planes.TextureIgnoresNormalOffset | lib/models/plane.rb:39-44 | Moving the hit point along the normal leaves both coordinates unchanged. |
| Scenes.AspectRatio | lib/scene.rb:16-20 | The ratio is at least 1, and it times the smaller dimension is the larger one. |
| Scenes.AspectSymmetric | lib/scene.rb:16-20 | Swapping width and height does not change the ratio. |
| Scenes.PixelX | lib/scene.rb:44 | A column inside the image maps strictly inside (-1, 1). |
| Scenes.PixelXMirror | lib/scene.rb:44 | Columns `x` and `W-1-x` map to opposite values. |
| Scenes.PixelY | lib/scene.rb:45 | A row inside the image maps strictly inside (-1, 1). |
| Scenes.PixelYFlipped | lib/scene.rb:45 | Rows run top to bottom: row 0 of a taller-than-one image is above the centre, and rows `y` and `H-1-y` map to opposite values. |
| Scenes.ImagePlaneDirection | lib/scene.rb:44-51 | The unnormalised camera direction lies on the image plane `z = -1`. |
| Scenes.AspectCorrection | lib/scene.rb:46-50 | Only the horizontal offset is stretched for a wide image, and only the vertical one otherwise. A square image has ratio 1, so nothing is stretched. |
| Scenes.SquarePixels | lib/scene.rb:44-50 | One column step moves the direction sideways by exactly as much as one row step moves it down. |
| Scenes.ColumnStep | lib/scene.rb:44-50 | One column to the right moves the direction sideways by `2 / shorter side × fov` and leaves its vertical offset alone. |
| Scenes.RowStep | lib/scene.rb:44-50 | One row down moves the direction down by `2 / shorter side × fov` and leaves its horizontal offset alone. |
| Scenes.PixelSteps | lib/scene.rb:44-45 | Neighbouring columns, and neighbouring rows, are `2 / size` apart. |
| Scenes.CameraRay | lib/scene.rb:51 | The camera ray starts at the origin, with a unit direction along the image-plane point. |
| Scenes.ClosestAmong | lib/scene.rb:97-105 | There is no result exactly when every distance is absent. Otherwise the result is a present distance no larger than any other, strictly smaller than every earlier one. |
| Scenes.Distances | lib/scene.rb:98-100 | There is one entry per model, and entry `i` is model `i`'s own intersection with the ray. |
| Scenes.ClosestIntersection | lib/scene.rb:97-105 | There is no hit exactly when every model misses. Otherwise the hit is its model's own distance and no larger than any model's. |
| Scenes.ShadowRay | lib/scene.rb:62-64 | The shadow ray fails exactly for a zero light direction. It starts off the surface by the bias along the normal and has a unit direction towards the light. |
| Scenes.LitIffNothingNearer | lib/scene.rb:65-67 | A light at a finite distance is lit exactly when no model meets the shadow ray at or before that distance. A light infinitely far away is lit exactly when no model meets the shadow ray at all. |
| Scenes.LightPower | lib/scene.rb:69-70 | The power is `normal·direction × intensity` when that is non-negative, and 0 otherwise. |
| Scenes.PowerVanishes | lib/scene.rb:68-70 | Zero intensity, or a non-negative intensity from behind the surface, gives zero power. |
| Scenes.LightChannel | lib/scene.rb:71-73 | A channel is at most 255, non-negative for non-negative inputs, and zero at zero power. For a non-negative value `v = c × power × albedo / π` it is 255 exactly when `v` reaches 255, and otherwise the integer part of `v`. |
| Scenes.LightColor | lib/scene.rb:71-74 | Each channel of a light colour is `LightChannel` of the light's channel at the same power and albedo. The result is a byte colour for byte lights and non-negative power and albedo, and black at zero power. |
| Scenes.ShadeLight | lib/scene.rb:61-74 | A light's contribution fails exactly when its direction from the hit point is the zero vector. |
| Scenes.ShadowedIsBlack | lib/scene.rb:67-74 | A light blocked by a model contributes black. |
| Scenes.PowerInFront | lib/scene.rb:68-69 | When `normal·direction × intensity` is non-negative, the power is that product, unclamped. |
| Scenes.LitFrontLight | lib/scene.rb:61-74 | A lit light with a non-zero direction and a non-negative `normal·direction × intensity` contributes `LightColor` of its colour at exactly that power. |
| Scenes.BehindIsBlack | lib/scene.rb:68-74 | A light behind the surface contributes black, shadowed or not. |
| Scenes.CollectAll | lib/scene.rb:61 | The loop over lights fails exactly when some light fails. Otherwise it yields one value per light, in order. |
| Scenes.LightResults | lib/scene.rb:61-74 | There is one result per light, and result `i` fails exactly when light `i`'s direction from the hit point is zero. |
| Scenes.ShadeLights | lib/scene.rb:61-78 | Shading yields one colour per light when it succeeds. |
| Scenes.ShadeLightsFailure | lib/scene.rb:61-64 | Shading fails exactly when some light's direction from the hit point is the zero vector. |
| Scenes.ShadeLightsElement | lib/scene.rb:61-74 | Where shading succeeds, colour `i` is light `i`'s own contribution. |
| Scenes.Pixel | lib/scene.rb:51-85 | A pixel shows the background exactly when every model misses its camera ray. A lit result holds one colour per light. |
| Scenes.ShadeHit | lib/scene.rb:57-78 | A successful shade holds one colour per light. It fails with the texture domain error exactly when the normal is defined, the model's texture lookup is out of range and light 0's direction is non-zero. |
| Scenes.TextureDomainFailure | lib/scene.rb:56-78 | A lit pixel that sees a model aborts with the texture domain error exactly when the closest hit's normal is defined, its texture lookup is out of range and light 0's direction is non-zero. |
| Spheres.TextureRaisesBelow | lib/models/sphere.rb:45-48 | On the surface the `acos` argument is never positive, and the lookup raises exactly below `radius - 1` above the centre. |
| Scenes.UnlitSceneIsFlat | lib/scene.rb:56-82 | Without lights, a pixel that sees a model takes the closest model's base colour. |
| Scenes.LitPixel | lib/scene.rb:56-78 | With lights, colour `i` of a pixel is light `i`'s contribution at the closest hit point, under the closest model's normal and albedo. |

## Left out

- Gamma correction (`rgb_gamma`, `hex_gamma`, lib/color.rb:24-26,60-62): it needs a real power `** (1 / 2.2)`.
- Sphere texture coordinates (lib/models/sphere.rb:45-50): their values need `atan2` and `acos`. Only the `Math.acos` domain error is modelled.
- The field of view: `tan` of half the angle (lib/scene.rb:21-22) is the scene parameter `fovAdjustment`.
- The ImageMagick canvas, `Draw`, `display`/`write` and the progress bar (lib/scene.rb:23-25,30-38,80-92): I/O.
- The `Colorable::Color` accumulation and the blend with the material's texture colour (lib/scene.rb:59,77), and lib/base.rb: these wrap an external library. `Scenes.Pixel` returns the per-light colours instead of their sum.
- `multiply_colors` (lib/scene.rb:107-119): dead private code.
- `reflectivity` and `refraction`: stored by `Materials.NewMaterial` but never read.
- Lights: `direction_from`, `intensity_at` and `distance_from` are defined in no modelled file. They are functions carried by each `Scenes.Light`. A distance of `None` stands for the infinite distance of a directional light.
- Floating-point rounding: `real` is exact, but Ruby computes each channel of `+` and `*` in `Float` and then applies `to_i`. A rounded product or sum can land just below an integer, and `to_i` then gives one less than the exact value, at any channel and not only near 255. In IEEE double arithmetic `(1/255.0 + 32/255.0) * 255` is `32.99999999999999`, so Ruby's channel is 32 where `Colors.PlusColor` gives 33; likewise `17/255.0 * 195/255.0 * 255` is `12.999999999999998`, so 12 where `Colors.TimesColor` gives 13. `Colors.PlusColor`, `Colors.TimesColor`, `Colors.PlusFloatChannels` and `Colors.TimesFloatChannels` therefore state the exact-arithmetic channel, which can exceed Ruby's by one. Rounding near the epsilons is not modelled either.
- Colors.Hex: requires non-negative channels. `%02x` of a negative number prints a `..f` form that is not modelled.
- Colors.FromHexString: requires text made of `#` and hex digits only. `pack('H*')` on other characters is not modelled.
- Colors.HexRoundTrip: holds for sigils made of `#` only. Another sigil would be kept in the text given to `pack`.
- Scenes.ClosestAmong: ties go to the earliest model. Ruby's `sort_by` leaves the order of equal keys unspecified.
- Scenes.Pixel: requires the pixel to lie inside the image. `@height.times` and `@width.times` visit no other pixel, and an image with a zero dimension has no pixels at all.
- The `Shape` mixin (lib/models/shape.rb) and script.rb: neither is used by the modelled classes.
- Materials.ColorAt: a texture that raises is not modelled.

=== FILE: colors.dfy ===
/**
 * RGB colours (lib/color.rb): three integer channels, normally bytes,
 * built from a `#rrggbb` hex string or from an array, printed back as hex,
 * and combined channel-wise by `+` and `*` with clamping at full intensity.
 *
 * Ruby Floats are modelled as exact reals, so the channel formulas hold
 * without the binary rounding of Ruby's `Float`.
 */
module Colors {
  import opened Wrappers

  datatype Color = Color(red: int, green: int, blue: int)

  const Black: Color := Color(0, 0, 0)
  const White: Color := Color(255, 255, 255)

  predicate IsByte(n: int) {
    0 <= n < 256
  }

  predicate IsByteColor(c: Color) {
    IsByte(c.red) && IsByte(c.green) && IsByte(c.blue)
  }

  /** What `Color.new`, `+` and `*` raise instead of returning a colour. */
  datatype ColorError =
    | MissingChannel      // fewer than three channels: `nil / 255.0` fails
    | UnsupportedOperand  // 'what are you giving me here?'

  /** The right-hand operand of `+` and `*`, by its Ruby class. */
  datatype Operand =
    | FloatOperand(f: real)
    | ColorOperand(c: Color)
    | IntegerOperand(i: int)
    | OtherOperand

  /** The argument of `Color.new`: a hex string, or an array of channels. */
  datatype ColorSource = HexString(text: string) | Channels(values: seq<int>)

  function MinReal(a: real, b: real): real {
    if a <= b then a else b
  }

  function MinInt(a: int, b: int): int {
    if a <= b then a else b
  }

  /** Ruby's `Float#to_i`: rounds toward zero. */
  function Trunc(x: real): (n: int)
    ensures 0.0 <= x ==> 0 <= n && n as real <= x < n as real + 1.0
    ensures x < 0.0 ==> n <= 0 && n as real - 1.0 < x <= n as real
  {
    if 0.0 <= x then x.Floor else -((-x).Floor)
  }

  lemma TruncOfInt(n: int)
    ensures Trunc(n as real) == n
  {
  }

  /** `[@red, @green, @blue]`. */
  function Rgb(c: Color): seq<int> {
    [c.red, c.green, c.blue]
  }

  /** One entry of `@units`: a channel as a fraction of 255. */
  function Unit(n: int): real {
    n as real / 255.0
  }

  /** `@units`, in red, green, blue order. */
  function Units(c: Color): seq<real> {
    [Unit(c.red), Unit(c.green), Unit(c.blue)]
  }

  /** Every unit is the matching channel over 255; byte channels give units in [0, 1]. */
  lemma UnitsOfChannels(c: Color)
    ensures |Units(c)| == 3
    ensures forall i :: 0 <= i < 3 ==> Units(c)[i] * 255.0 == Rgb(c)[i] as real
    ensures IsByteColor(c) ==> forall i :: 0 <= i < 3 ==> 0.0 <= Units(c)[i] <= 1.0
  {
  }

  /** `[unit + other, 1.0].min`. */
  function ClampedSum(u: real, v: real): real {
    MinReal(u + v, 1.0)
  }

  /** `[unit * other, 1.0].min`. */
  function ClampedProduct(u: real, v: real): real {
    MinReal(u * v, 1.0)
  }

  /** `(a * 255).to_i`: a unit back to a channel. */
  function ToChannel(a: real): int {
    Trunc(a * 255.0)
  }

  /** `Color.new(array)`: the first three entries are the channels. */
  function FromChannels(values: seq<int>): (r: Result<Color, ColorError>)
    ensures r.Failure? <==> |values| < 3
    ensures r.Success? ==> Rgb(r.value) == values[..3]
  {
    if |values| < 3 then Failure(MissingChannel)
    else Success(Color(values[0], values[1], values[2]))
  }

  /** `Color.new(c.rgb)` rebuilds `c`, and `rgb` returns what the array held. */
  lemma ChannelsRoundTrip(c: Color, values: seq<int>)
    ensures FromChannels(Rgb(c)) == Success(c)
    ensures 3 <= |values| ==> Rgb(FromChannels(values).value) == values[..3]
  {
  }

  // ---------------------------------------------------------------------
  // Arithmetic
  // ---------------------------------------------------------------------

  /** `+`: channel-wise sum of units, each clamped at 1.0; other operands raise. */
  function Plus(c: Color, other: Operand): (r: Result<Color, ColorError>)
    ensures r.Failure? <==> !(other.FloatOperand? || other.ColorOperand?)
    ensures r.Failure? ==> r.error == UnsupportedOperand
    ensures other.ColorOperand? ==> r == Success(PlusColor(c, other.c))
    ensures other.FloatOperand? ==> r == Success(PlusFloat(c, other.f))
  {
    match other
    case FloatOperand(f) => Success(PlusFloat(c, f))
    case ColorOperand(d) => Success(PlusColor(c, d))
    case _ => Failure(UnsupportedOperand)
  }

  /** The `when Float` branch of `+`. */
  function PlusFloat(c: Color, f: real): (r: Color)
    ensures r.red <= 255 && r.green <= 255 && r.blue <= 255
    ensures 0.0 <= f && IsByteColor(c) ==> IsByteColor(r)
  {
    ShiftChannel(c.red, f);
    ShiftChannel(c.green, f);
    ShiftChannel(c.blue, f);
    Color(ToChannel(ClampedSum(Unit(c.red), f)),
          ToChannel(ClampedSum(Unit(c.green), f)),
          ToChannel(ClampedSum(Unit(c.blue), f)))
  }

  /** A float addend keeps a channel at most 255; on bytes with `f >= 0` it stays a byte. */
  lemma ShiftChannel(a: int, f: real)
    ensures ToChannel(ClampedSum(Unit(a), f)) <= 255
    ensures 0 <= a < 256 && 0.0 <= f ==> 0 <= ToChannel(ClampedSum(Unit(a), f))
  {
  }

  /** The `when Color` branch of `+`: integer addition capped at 255, channel by channel. */
  function PlusColor(c: Color, d: Color): (r: Color)
    ensures r == Color(MinInt(c.red + d.red, 255),
                       MinInt(c.green + d.green, 255),
                       MinInt(c.blue + d.blue, 255))
  {
    SumChannel(c.red, d.red);
    SumChannel(c.green, d.green);
    SumChannel(c.blue, d.blue);
    Color(ToChannel(ClampedSum(Unit(c.red), Unit(d.red))),
          ToChannel(ClampedSum(Unit(c.green), Unit(d.green))),
          ToChannel(ClampedSum(Unit(c.blue), Unit(d.blue))))
  }

  /** Adding two units and converting back is integer addition capped at 255. */
  lemma SumChannel(a: int, b: int)
    ensures ToChannel(ClampedSum(Unit(a), Unit(b))) == MinInt(a + b, 255)
  {
    var s := ClampedSum(Unit(a), Unit(b));
    assert s * 255.0 == MinInt(a + b, 255) as real;
    TruncOfInt(MinInt(a + b, 255));
  }

  /** A float addend shifts every channel by `255 * f` before the cap. */
  lemma PlusFloatChannels(c: Color, f: real)
    ensures PlusFloat(c, f) ==
      Color(Trunc(MinReal(c.red as real + 255.0 * f, 255.0)),
            Trunc(MinReal(c.green as real + 255.0 * f, 255.0)),
            Trunc(MinReal(c.blue as real + 255.0 * f, 255.0)))
  {
    assert ClampedSum(Unit(c.red), f) * 255.0 == MinReal(c.red as real + 255.0 * f, 255.0);
    assert ClampedSum(Unit(c.green), f) * 255.0 == MinReal(c.green as real + 255.0 * f, 255.0);
    assert ClampedSum(Unit(c.blue), f) * 255.0 == MinReal(c.blue as real + 255.0 * f, 255.0);
  }

  /** Adding black changes no colour whose channels are at most 255. */
  lemma PlusBlackIdentity(c: Color)
    requires c.red <= 255 && c.green <= 255 && c.blue <= 255
    ensures Plus(c, ColorOperand(Black)) == Success(c)
  {
  }

  /** `+` on colours is commutative. */
  lemma PlusCommutative(c: Color, d: Color)
    ensures Plus(c, ColorOperand(d)) == Plus(d, ColorOperand(c))
  {
  }

  /** `*`: channel-wise product of units, each clamped at 1.0; other operands raise. */
  function Times(c: Color, other: Operand): (r: Result<Color, ColorError>)
    ensures r.Failure? <==> !(other.FloatOperand? || other.ColorOperand?)
    ensures r.Failure? ==> r.error == UnsupportedOperand
    ensures other.ColorOperand? ==> r == Success(TimesColor(c, other.c))
    ensures other.FloatOperand? ==> r == Success(TimesFloat(c, other.f))
  {
    match other
    case FloatOperand(f) => Success(TimesFloat(c, f))
    case ColorOperand(d) => Success(TimesColor(c, d))
    case _ => Failure(UnsupportedOperand)
  }

  /** The `when Float` branch of `*`. */
  function TimesFloat(c: Color, f: real): (r: Color)
    ensures r.red <= 255 && r.green <= 255 && r.blue <= 255
    ensures 0.0 <= f && IsByteColor(c) ==> IsByteColor(r)
    ensures f == 0.0 ==> r == Black
  {
    ScaleChannel(c.red, f);
    ScaleChannel(c.green, f);
    ScaleChannel(c.blue, f);
    Color(ToChannel(ClampedProduct(Unit(c.red), f)),
          ToChannel(ClampedProduct(Unit(c.green), f)),
          ToChannel(ClampedProduct(Unit(c.blue), f)))
  }

  /** The `when Color` branch of `*`: on bytes, `a * b / 255` rounded down, channel by channel. */
  function TimesColor(c: Color, d: Color): (r: Color)
    ensures IsByteColor(c) && IsByteColor(d) ==>
      r == Color(ByteProduct(c.red, d.red), ByteProduct(c.green, d.green), ByteProduct(c.blue, d.blue))
  {
    var r := Color(ToChannel(ClampedProduct(Unit(c.red), Unit(d.red))),
                   ToChannel(ClampedProduct(Unit(c.green), Unit(d.green))),
                   ToChannel(ClampedProduct(Unit(c.blue), Unit(d.blue))));
    assert IsByteColor(c) && IsByteColor(d) ==>
      r == Color(ByteProduct(c.red, d.red), ByteProduct(c.green, d.green), ByteProduct(c.blue, d.blue)) by {
      if IsByteColor(c) && IsByteColor(d) {
        ProductChannel(c.red, d.red);
        ProductChannel(c.green, d.green);
        ProductChannel(c.blue, d.blue);
      }
    }
    r
  }

  /** A float factor keeps a channel at most 255; on bytes with `f >= 0` it stays a byte. */
  lemma ScaleChannel(a: int, f: real)
    ensures ToChannel(ClampedProduct(Unit(a), f)) <= 255
    ensures 0 <= a < 256 && 0.0 <= f ==> 0 <= ToChannel(ClampedProduct(Unit(a), f))
    ensures f == 0.0 ==> ToChannel(ClampedProduct(Unit(a), f)) == 0
  {
    var m := ClampedProduct(Unit(a), f);
    assert m * 255.0 <= 255.0;
    if 0 <= a && 0.0 <= f {
      assert 0.0 <= Unit(a) * f;
    }
  }

  /** A float factor scales every channel by `f` before the cap at 255. */
  lemma TimesFloatChannels(c: Color, f: real)
    ensures TimesFloat(c, f).red == Trunc(MinReal(c.red as real * f, 255.0))
    ensures TimesFloat(c, f).green == Trunc(MinReal(c.green as real * f, 255.0))
    ensures TimesFloat(c, f).blue == Trunc(MinReal(c.blue as real * f, 255.0))
  {
    ScaledChannel(c.red, f);
    ScaledChannel(c.green, f);
    ScaledChannel(c.blue, f);
  }

  /** The unit of `a` times `f`, capped at 1.0 and back on the 255 scale, is `min(a * f, 255)`. */
  lemma ScaledChannel(a: int, f: real)
    ensures ClampedProduct(Unit(a), f) * 255.0 == MinReal(a as real * f, 255.0)
  {
    var u := Unit(a);
    assert u * 255.0 == a as real;
    assert u * f * 255.0 == a as real * f;
  }

  /** `a * b / 255`, rounded down. */
  function ByteProduct(a: int, b: int): int {
    a * b / 255
  }

  /** The product of two byte units, converted back, is `a * b / 255` rounded down. */
  lemma ProductChannel(a: int, b: int)
    requires IsByte(a) && IsByte(b)
    ensures ToChannel(ClampedProduct(Unit(a), Unit(b))) == ByteProduct(a, b)
  {
    var p := a * b;
    ByteProductRange(a, b);
    UnitProduct(a, b);
    var u := p as real / 65025.0;
    assert u <= 1.0;
    assert ClampedProduct(Unit(a), Unit(b)) == u;
    assert u * 255.0 == p as real / 255.0;
    FloorDiv(p);
  }

  lemma ByteProductRange(a: int, b: int)
    requires IsByte(a) && IsByte(b)
    ensures 0 <= a * b <= 65025
  {
    MultiplyBelow(a, 255, b);
    MultiplyBelow(b, 255, 255);
    assert 0 <= a * b;
  }

  lemma MultiplyBelow(x: int, y: int, k: int)
    requires x <= y && 0 <= k
    ensures x * k <= y * k
  {
    assert y * k - x * k == (y - x) * k;
  }

  /** Multiplying two units is dividing the product of the channels by `255 * 255`. */
  lemma UnitProduct(a: int, b: int)
    ensures Unit(a) * Unit(b) == (a * b) as real / 65025.0
  {
    assert (a * b) as real == a as real * b as real;
  }

  /** Real division by 255 rounded down agrees with integer division. */
  lemma FloorDiv(p: int)
    requires 0 <= p
    ensures Trunc(p as real / 255.0) == p / 255
  {
    var q, r := p / 255, p % 255;
    assert p == 255 * q + r && 0 <= r < 255;
    assert p as real / 255.0 == q as real + r as real / 255.0;
  }

  /** A byte channel times a byte channel, over 255, is at most either factor. */
  lemma TimesBelowFactors(c: Color, d: Color)
    requires IsByteColor(c) && IsByteColor(d)
    ensures TimesColor(c, d).red <= MinInt(c.red, d.red)
    ensures TimesColor(c, d).green <= MinInt(c.green, d.green)
    ensures TimesColor(c, d).blue <= MinInt(c.blue, d.blue)
  {
    ProductBelowFactors(c.red, d.red);
    ProductBelowFactors(c.green, d.green);
    ProductBelowFactors(c.blue, d.blue);
  }

  lemma ProductBelowFactors(a: int, b: int)
    requires IsByte(a) && IsByte(b)
    ensures ByteProduct(a, b) <= a && ByteProduct(a, b) <= b
  {
    assert a * b <= a * 255;
    assert a * b <= 255 * b;
  }

  /** Multiplying a byte colour by white gives the colour back. */
  lemma TimesWhiteIdentity(c: Color)
    requires IsByteColor(c)
    ensures Times(c, ColorOperand(White)) == Success(c)
  {
    assert ByteProduct(c.red, 255) == c.red;
    assert ByteProduct(c.green, 255) == c.green;
    assert ByteProduct(c.blue, 255) == c.blue;
  }

  /** Multiplying a byte colour by the float 1.0 gives the colour back. */
  lemma TimesOneIdentity(c: Color)
    requires IsByteColor(c)
    ensures Times(c, FloatOperand(1.0)) == Success(c)
  {
    TruncOfInt(c.red);
    TruncOfInt(c.green);
    TruncOfInt(c.blue);
  }

  // ---------------------------------------------------------------------
  // Hex notation
  // ---------------------------------------------------------------------

  /** A digit `pack('H*')` reads as hex: `0-9`, `a-f` or `A-F`. */
  predicate IsHexDigit(ch: char) {
    '0' <= ch <= '9' || 'a' <= ch <= 'f' || 'A' <= ch <= 'F'
  }

  /** A digit `format('%x')` prints. */
  predicate IsLowerHexDigit(ch: char) {
    '0' <= ch <= '9' || 'a' <= ch <= 'f'
  }

  predicate AllHexDigits(s: string) {
    forall i :: 0 <= i < |s| ==> IsHexDigit(s[i])
  }

  predicate AllLowerHexDigits(s: string) {
    forall i :: 0 <= i < |s| ==> IsLowerHexDigit(s[i])
  }

  /** The lower-case digit for `0 <= n < 16`. */
  function HexDigit(n: int): (ch: char)
    requires 0 <= n < 16
    ensures IsLowerHexDigit(ch)
  {
    if n < 10 then ('0' as int + n) as char else ('a' as int + n - 10) as char
  }

  /** The value of a hex digit, in either case. */
  function DigitValue(ch: char): (n: int)
    requires IsHexDigit(ch)
    ensures 0 <= n < 16
  {
    if '0' <= ch <= '9' then ch as int - '0' as int
    else if 'a' <= ch <= 'f' then ch as int - 'a' as int + 10
    else ch as int - 'A' as int + 10
  }

  lemma DigitRoundTrip(n: int)
    requires 0 <= n < 16
    ensures DigitValue(HexDigit(n)) == n
  {
  }

  /** The number denoted by a string of hex digits, most significant first. */
  function HexValue(s: string): nat
    requires AllHexDigits(s)
  {
    if |s| == 0 then 0 else 16 * HexValue(s[..|s| - 1]) + DigitValue(s[|s| - 1])
  }

  /** `format('%x', n)`: the shortest lower-case hex numeral of `n`. */
  function ToHex(n: nat): (s: string)
    ensures 1 <= |s|
    ensures AllLowerHexDigits(s)
    ensures s[0] != '0' || n == 0
  {
    if n < 16 then [HexDigit(n)] else ToHex(n / 16) + [HexDigit(n % 16)]
  }

  /** The numeral printed by `ToHex` reads back as the number. */
  lemma {:induction false} ToHexValue(n: nat)
    ensures HexValue(ToHex(n)) == n
  {
    DigitRoundTrip(n % 16);
    if n < 16 {
      assert ToHex(n)[..0] == [];
    } else {
      var s := ToHex(n);
      assert s[..|s| - 1] == ToHex(n / 16);
      ToHexValue(n / 16);
    }
  }

  /** `format('%02x', n)`: `%x` left-padded with zeros to at least two digits. */
  function Format02x(n: nat): (s: string)
    ensures 2 <= |s|
    ensures |s| == 2 || s[0] != '0'
    ensures AllLowerHexDigits(s)
    ensures HexValue(s) == n
  {
    ToHexValue(n);
    if n < 16 then
      var s := ['0', HexDigit(n)];
      assert s[..1] == ['0'];
      assert HexValue(['0']) == 0 by {
        assert ['0'][..0] == [];
      }
      DigitRoundTrip(n);
      s
    else ToHex(n)
  }

  /** A byte prints as exactly two digits, high nibble first. */
  lemma Format02xByte(n: int)
    requires IsByte(n)
    ensures Format02x(n) == [HexDigit(n / 16), HexDigit(n % 16)]
  {
    if n < 16 {
      assert HexDigit(0) == '0';
    } else {
      assert ToHex(n) == ToHex(n / 16) + [HexDigit(n % 16)];
    }
  }

  /**
   * `%02x` prints exactly one text for each number: any lower-case numeral of
   * at least two digits that denotes `n`, with a leading zero only when it has
   * exactly two digits, is `Format02x(n)`.
   */
  lemma Format02xUnique(n: nat, s: string)
    requires 2 <= |s| && (|s| == 2 || s[0] != '0')
    requires AllLowerHexDigits(s) && HexValue(s) == n
    ensures s == Format02x(n)
  {
    var f := Format02x(n);
    if |s| < |f| {
      LongerIsLarger(s, f);
    } else if |f| < |s| {
      LongerIsLarger(f, s);
    }
    SameLengthUnique(s, f);
  }

  function Pow16(k: nat): nat {
    if k == 0 then 1 else 16 * Pow16(k - 1)
  }

  /** A numeral with a non-zero leading digit denotes more than any shorter numeral. */
  lemma LongerIsLarger(s: string, t: string)
    requires AllHexDigits(s) && AllHexDigits(t)
    requires |s| < |t| && t[0] != '0'
    ensures HexValue(s) < HexValue(t)
  {
    ValueBelow(s);
    ValueAtLeast(t);
    Pow16Monotone(|s|, |t| - 1);
  }

  lemma {:induction false} Pow16Monotone(i: nat, j: nat)
    requires i <= j
    ensures Pow16(i) <= Pow16(j)
    decreases j
  {
    if i < j {
      Pow16Monotone(i, j - 1);
    }
  }

  /** A numeral of `k` digits denotes less than `16^k`. */
  lemma {:induction false} ValueBelow(s: string)
    requires AllHexDigits(s)
    ensures HexValue(s) < Pow16(|s|)
    decreases |s|
  {
    if |s| > 0 {
      ValueBelow(s[..|s| - 1]);
    }
  }

  /** A numeral of `k` digits without a leading zero denotes at least `16^(k-1)`. */
  lemma {:induction false} ValueAtLeast(s: string)
    requires AllHexDigits(s) && 1 <= |s| && s[0] != '0'
    ensures Pow16(|s| - 1) <= HexValue(s)
    decreases |s|
  {
    var p := s[..|s| - 1];
    if |s| == 1 {
      assert HexValue(p) == 0;
      assert DigitValue(s[0]) != 0;
    } else {
      assert p[0] == s[0];
      ValueAtLeast(p);
    }
  }

  /** Two lower-case numerals of the same length that denote the same number are equal. */
  lemma {:induction false} SameLengthUnique(s: string, t: string)
    requires AllLowerHexDigits(s) && AllLowerHexDigits(t)
    requires |s| == |t| && HexValue(s) == HexValue(t)
    ensures s == t
    decreases |s|
  {
    if |s| > 0 {
      var k := |s| - 1;
      var ps, pt := s[..k], t[..k];
      SplitDigits(HexValue(ps), DigitValue(s[k]), HexValue(pt), DigitValue(t[k]));
      LowerDigitInjective(s[k], t[k]);
      SameLengthUnique(ps, pt);
      assert s == ps + [s[k]] && t == pt + [t[k]];
    }
  }

  // SplitDigits and LowerDigitInjective keep the arithmetic and the character
  // cases out of the induction in SameLengthUnique.

  /** `16 a + x = 16 b + y` with digits `x` and `y` forces `a = b` and `x = y`. */
  lemma SplitDigits(a: int, x: int, b: int, y: int)
    requires 0 <= x < 16 && 0 <= y < 16 && 16 * a + x == 16 * b + y
    ensures a == b && x == y
  {
  }

  /** Distinct lower-case digits have distinct values. */
  lemma LowerDigitInjective(c: char, d: char)
    requires IsLowerHexDigit(c) && IsLowerHexDigit(d) && DigitValue(c) == DigitValue(d)
    ensures c == d
  {
  }

  /** `t` is two lower-case hex digits denoting `n`. */
  predicate EncodesByte(t: string, n: int) {
    && |t| == 2
    && IsLowerHexDigit(t[0]) && IsLowerHexDigit(t[1])
    && 16 * DigitValue(t[0]) + DigitValue(t[1]) == n
  }

  lemma Format02xEncodes(n: int)
    requires IsByte(n)
    ensures EncodesByte(Format02x(n), n)
  {
    Format02xByte(n);
    DigitRoundTrip(n / 16);
    DigitRoundTrip(n % 16);
  }

  /** `hex(sigil)`: the sigil, then `%02x` of red, green and blue. */
  function Hex(c: Color, sigil: string): (s: string)
    requires 0 <= c.red && 0 <= c.green && 0 <= c.blue
    ensures |sigil| + 6 <= |s| && s[..|sigil|] == sigil
    ensures IsByteColor(c) ==>
      && |s| == |sigil| + 6
      && EncodesByte(s[|sigil|..|sigil| + 2], c.red)
      && EncodesByte(s[|sigil| + 2..|sigil| + 4], c.green)
      && EncodesByte(s[|sigil| + 4..], c.blue)
  {
    var s := sigil + Format02x(c.red) + Format02x(c.green) + Format02x(c.blue);
    assert IsByteColor(c) ==> (s[|sigil|..|sigil| + 2] == Format02x(c.red)
      && s[|sigil| + 2..|sigil| + 4] == Format02x(c.green)
      && s[|sigil| + 4..] == Format02x(c.blue)) by {
      if IsByteColor(c) {
        Format02xByte(c.red);
        Format02xByte(c.green);
        Format02xByte(c.blue);
      }
    }
    if IsByteColor(c) then
      Format02xEncodes(c.red);
      Format02xEncodes(c.green);
      Format02xEncodes(c.blue);
      s
    else s
  }

  /** The byte-colour instance of `Hex` with the default sigil `#`; `Hex` itself covers every colour with non-negative channels. */
  function HexDefault(c: Color): (s: string)
    requires IsByteColor(c)
    ensures |s| == 7 && s[0] == '#' && AllLowerHexDigits(s[1..])
  {
    var s := Hex(c, "#");
    assert s[1..] == s[1..3] + s[3..5] + s[5..];
    s
  }

  // ---------------------------------------------------------------------
  // Parsing
  // ---------------------------------------------------------------------

  /** The strings the parser is defined on: hex digits and `#` sigils only. */
  predicate IsHexText(s: string) {
    forall i :: 0 <= i < |s| ==> s[i] == '#' || IsHexDigit(s[i])
  }

  /** `tr('#', '')`: the string with every `#` removed. */
  function RemoveSigils(s: string): (r: string)
    ensures |r| <= |s|
    ensures forall i :: 0 <= i < |r| ==> r[i] != '#'
    ensures IsHexText(s) ==> AllHexDigits(r)
  {
    if |s| == 0 then ""
    else if s[0] == '#' then RemoveSigils(s[1..])
    else [s[0]] + RemoveSigils(s[1..])
  }

  /** Removal works piecewise: on a concatenation it removes from each part. */
  lemma {:induction false} RemoveSigilsAppend(a: string, b: string)
    ensures RemoveSigils(a + b) == RemoveSigils(a) + RemoveSigils(b)
  {
    if |a| == 0 {
      assert a + b == b;
    } else {
      assert (a + b)[1..] == a[1..] + b;
      RemoveSigilsAppend(a[1..], b);
    }
  }

  /** A string without `#` is unchanged, and one made only of `#` vanishes. */
  lemma {:induction false} RemoveSigilsExtremes(s: string)
    ensures (forall i :: 0 <= i < |s| ==> s[i] != '#') ==> RemoveSigils(s) == s
    ensures (forall i :: 0 <= i < |s| ==> s[i] == '#') ==> RemoveSigils(s) == ""
  {
    if |s| != 0 {
      RemoveSigilsExtremes(s[1..]);
      if forall i :: 0 <= i < |s| ==> s[i] != '#' {
        assert [s[0]] + s[1..] == s;
      }
    }
  }

  /** The byte `pack('H*')` makes of two hex digits. */
  function PairValue(hi: char, lo: char): int
    requires IsHexDigit(hi) && IsHexDigit(lo)
  {
    16 * DigitValue(hi) + DigitValue(lo)
  }

  /**
   * `pack('H*').bytes`: consecutive digit pairs, high nibble first; an odd
   * final digit becomes a byte whose low nibble is zero.
   */
  function PackHex(h: string): (bytes: seq<int>)
    requires AllHexDigits(h)
    ensures |bytes| == (|h| + 1) / 2
    ensures forall k :: 0 <= k < |bytes| ==> IsByte(bytes[k])
    decreases |h|
  {
    if |h| == 0 then []
    else if |h| == 1 then [16 * DigitValue(h[0])]
    else [PairValue(h[0], h[1])] + PackHex(h[2..])
  }

  /** Byte `k` of the packing is digit pair `2k, 2k+1`, or the lone last digit. */
  lemma {:induction false} PackHexBytes(h: string, k: int)
    requires AllHexDigits(h) && 0 <= k < (|h| + 1) / 2
    ensures 2 * k + 1 < |h| ==> PackHex(h)[k] == PairValue(h[2 * k], h[2 * k + 1])
    ensures 2 * k + 1 == |h| ==> PackHex(h)[k] == 16 * DigitValue(h[2 * k])
    decreases |h|
  {
    if 2 <= |h| && 0 < k {
      PackHexBytes(h[2..], k - 1);
      assert h[2..][2 * (k - 1)] == h[2 * k];
      assert 2 * k + 1 < |h| ==> h[2..][2 * (k - 1) + 1] == h[2 * k + 1];
    }
  }

  /** `Color.new(string)`: the first three packed bytes are red, green and blue. */
  function FromHexString(s: string): (r: Result<Color, ColorError>)
    requires IsHexText(s)
    ensures var h := RemoveSigils(s);
      && (r.Failure? <==> |h| < 5)
      && (r.Failure? ==> r.error == MissingChannel)
      && (r.Success? ==>
            && IsByteColor(r.value)
            && r.value.red == PairValue(h[0], h[1])
            && r.value.green == PairValue(h[2], h[3])
            && (|h| == 5 ==> r.value.blue == 16 * DigitValue(h[4]))
            && (6 <= |h| ==> r.value.blue == PairValue(h[4], h[5])))
  {
    var h := RemoveSigils(s);
    var bytes := PackHex(h);
    if |bytes| < 3 then Failure(MissingChannel)
    else
      PackHexBytes(h, 0);
      PackHexBytes(h, 1);
      PackHexBytes(h, 2);
      Success(Color(bytes[0], bytes[1], bytes[2]))
  }

  /** `Color.new(arg)`, by the class of `arg`. */
  function New(arg: ColorSource): (r: Result<Color, ColorError>)
    requires arg.HexString? ==> IsHexText(arg.text)
    ensures arg.HexString? ==> r == FromHexString(arg.text)
    ensures arg.Channels? ==> r == FromChannels(arg.values)
  {
    match arg
    case HexString(text) => FromHexString(text)
    case Channels(values) => FromChannels(values)
  }

  /** Parsing what `hex` prints gives the colour back, for any sigil made of `#`. */
  lemma HexRoundTrip(c: Color, sigil: string)
    requires IsByteColor(c)
    requires forall i :: 0 <= i < |sigil| ==> sigil[i] == '#'
    ensures IsHexText(Hex(c, sigil))
    ensures New(HexString(Hex(c, sigil))) == Success(c)
  {
    HexKeepsDigits(c, sigil);
    var s := Hex(c, sigil);
    var digits := s[|sigil|..];
    assert digits[0..2] == s[|sigil|..|sigil| + 2];
    assert digits[2..4] == s[|sigil| + 2..|sigil| + 4];
    assert digits[4..] == s[|sigil| + 4..];
    var r := FromHexString(s);
    assert r.Success?;
    assert digits[0..2][0] == digits[0] && digits[0..2][1] == digits[1];
    assert digits[2..4][0] == digits[2] && digits[2..4][1] == digits[3];
    assert digits[4..][0] == digits[4] && digits[4..][1] == digits[5];
  }

  /** What the parser keeps of `hex(sigil)` is exactly the six printed digits. */
  lemma HexKeepsDigits(c: Color, sigil: string)
    requires IsByteColor(c)
    requires forall i :: 0 <= i < |sigil| ==> sigil[i] == '#'
    ensures IsHexText(Hex(c, sigil))
    ensures RemoveSigils(Hex(c, sigil)) == Hex(c, sigil)[|sigil|..]
  {
    var a, b, d := Format02x(c.red), Format02x(c.green), Format02x(c.blue);
    var digits := a + b + d;
    assert Hex(c, sigil) == sigil + digits;
    LowerHexAppend(a, b);
    LowerHexAppend(a + b, d);
    SigilsThenDigits(sigil, digits);
  }

  lemma LowerHexAppend(a: string, b: string)
    requires AllLowerHexDigits(a) && AllLowerHexDigits(b)
    ensures AllLowerHexDigits(a + b)
  {
    forall i | 0 <= i < |a + b|
      ensures IsLowerHexDigit((a + b)[i])
    {
      if i < |a| {
        assert (a + b)[i] == a[i];
      } else {
        assert (a + b)[i] == b[i - |a|];
      }
    }
  }

  /** Removing the sigils from sigils followed by digits leaves the digits. */
  lemma SigilsThenDigits(sigil: string, digits: string)
    requires forall i :: 0 <= i < |sigil| ==> sigil[i] == '#'
    requires AllLowerHexDigits(digits)
    ensures IsHexText(sigil + digits)
    ensures (sigil + digits)[|sigil|..] == digits
    ensures RemoveSigils(sigil + digits) == digits
  {
    var s := sigil + digits;
    forall i | 0 <= i < |s|
      ensures s[i] == '#' || IsHexDigit(s[i])
    {
      if i < |sigil| {
        assert s[i] == sigil[i];
      } else {
        assert s[i] == digits[i - |sigil|];
      }
    }
    RemoveSigilsAppend(sigil, digits);
    RemoveSigilsExtremes(sigil);
    RemoveSigilsExtremes(digits);
  }
}

=== FILE: materials.dfy ===
/**
 * Surface materials: a base colour, an optional texture that overrides it,
 * and the helper that maps normalised texture coordinates onto a texture of
 * a given size, repeating the texture outside the unit square.
 */
module Materials {
  import opened Wrappers
  import opened Colors

  /** The `refraction` struct: an index and a transparency. */
  datatype Refraction = Refraction(index: real, transparency: real)

  /** Anything answering `call(x, y)` with a colour. */
  type Texture = (real, real) -> Color

  datatype Material = Material(
    color: Color,
    albedo: real,
    texture: Option<Texture>,
    reflectivity: real,
    refraction: Option<Refraction>)

  /**
   * `Material.new`: the colour argument goes through `Color.new`, the rest
   * is stored as given. A colour the parser rejects makes the construction fail.
   */
  function NewMaterial(
    color: ColorSource, albedo: real, texture: Option<Texture>,
    reflectivity: real, refraction: Option<Refraction>): (r: Result<Material, ColorError>)
    requires color.HexString? ==> IsHexText(color.text)
    ensures r.Success? <==> New(color).Success?
    ensures r.Failure? ==> r.error == New(color).error
    ensures r.Success? ==>
      && r.value.color == New(color).value
      && r.value.albedo == albedo
      && r.value.texture == texture
      && r.value.reflectivity == reflectivity
      && r.value.refraction == refraction
  {
    match New(color)
    case Success(c) => Success(Material(c, albedo, texture, reflectivity, refraction))
    case Failure(e) => Failure(e)
  }

  /** The defaults of `Material.new`: white, albedo 1, no texture, no reflection. */
  const DefaultColor: string := "#ffffff"

  /** `Material.new` with every argument defaulted yields a plain white material. */
  lemma DefaultMaterial()
    ensures IsHexText(DefaultColor)
    ensures var r := NewMaterial(HexString(DefaultColor), 1.0, None, 0.0, None);
      && r.Success?
      && r.value.color == White
      && r.value.albedo == 1.0
      && r.value.texture.None?
      && r.value.reflectivity == 0.0
      && r.value.refraction.None?
  {
    DefaultColorIsWhite();
  }

  /** The default colour text is what `hex` prints for white, so it parses to white. */
  lemma DefaultColorIsWhite()
    ensures IsHexText(DefaultColor)
    ensures FromHexString(DefaultColor) == Success(White)
  {
    Format02xByte(255);
    assert HexDigit(15) == 'f';
    assert Format02x(255) == "ff";
    assert Hex(White, "#") == DefaultColor;
    HexRoundTrip(White, "#");
  }

  /** `color_at`: the texture's colour when there is a texture, else the base colour. */
  function ColorAt(m: Material, x: real, y: real): (c: Color)
    ensures m.texture.None? ==> c == m.color
    ensures m.texture.Some? ==> c == m.texture.value(x, y)
  {
    match m.texture
    case Some(t) => t(x, y)
    case None => m.color
  }

  /** A texture overrides the colour: materials differing only in colour look the same. */
  lemma TextureOverridesColor(m: Material, other: Color, x: real, y: real)
    requires m.texture.Some?
    ensures ColorAt(m.(color := other), x, y) == ColorAt(m, x, y)
  {
  }

  /** Without a texture a material has one colour everywhere. */
  lemma UntexturedIsUniform(m: Material, x: real, y: real, x': real, y': real)
    requires m.texture.None?
    ensures ColorAt(m, x, y) == ColorAt(m, x', y') == m.color
  {
  }

  // ---------------------------------------------------------------------
  // Texture coordinates
  // ---------------------------------------------------------------------

  /** Ruby's `Float#%` for a non-zero divisor: the remainder takes the divisor's sign. */
  function FloorMod(a: real, b: real): (r: real)
    requires b != 0.0
    ensures 0.0 < b ==> 0.0 <= r < b
    ensures b < 0.0 ==> b < r <= 0.0
    ensures r == a - b * ((a / b).Floor as real)
  {
    RemainderBounds(a, b, (a / b).Floor);
    a - b * ((a / b).Floor as real)
  }

  /** Taking the floor of the quotient leaves a remainder on the divisor's side of zero, short of the divisor. */
  lemma RemainderBounds(a: real, b: real, q: int)
    requires b != 0.0 && q == (a / b).Floor
    ensures 0.0 < b ==> 0.0 <= a - b * (q as real) < b
    ensures b < 0.0 ==> b < a - b * (q as real) <= 0.0
  {
    var frac := a / b - q as real;
    var rem := a - b * (q as real);
    assert 0.0 <= frac < 1.0;
    assert rem == b * frac by {
      assert a == b * (a / b);
    }
    if 0.0 < b {
      PositiveFraction(b, frac);
    } else {
      PositiveFraction(-b, frac);
      assert b * frac == -((-b) * frac);
    }
  }

  /** A fraction in `[0, 1)` of a positive `b` lies in `[0, b)`. */
  lemma PositiveFraction(b: real, frac: real)
    requires 0.0 < b && 0.0 <= frac < 1.0
    ensures 0.0 <= b * frac < b
  {
    assert b * frac < b * 1.0;
  }

  /**
   * One axis of `to_absolute_coordinates`: scale by the texture size, take
   * the floored remainder and add the size once if that came out negative.
   * With a zero size Ruby's `Float#%` raises ZeroDivisionError, here `None`.
   */
  function WrapAxis(v: real, size: real): (r: Option<real>)
    ensures r.None? <==> size == 0.0
    ensures 0.0 < size ==> r.Some? && 0.0 <= r.value < size
  {
    if size == 0.0 then None
    else
      var m := FloorMod(v * size, size);
      Some(if m < 0.0 then m + size else m)
  }

  /**
   * `to_absolute_coordinates`: each axis wrapped on its own. The
   * ZeroDivisionError of either axis aborts the whole call, so a zero width
   * or height gives `None` for the pair.
   */
  function ToAbsoluteCoordinates(x: real, y: real, width: real, height: real): (r: Option<(real, real)>)
    ensures r.None? <==> width == 0.0 || height == 0.0
    ensures r.Some? ==> WrapAxis(x, width) == Some(r.value.0) && WrapAxis(y, height) == Some(r.value.1)
    ensures 0.0 < width && 0.0 < height ==>
      r.Some? && 0.0 <= r.value.0 < width && 0.0 <= r.value.1 < height
  {
    match (WrapAxis(x, width), WrapAxis(y, height))
    case (Some(xa), Some(ya)) => Some((xa, ya))
    case _ => None
  }

  /** A dividend already inside `[0, b)` is its own remainder. */
  lemma FloorModSmall(a: real, b: real)
    requires 0.0 <= a < b
    ensures FloorMod(a, b) == a
  {
    assert 0.0 <= a / b < 1.0 by {
      assert a == b * (a / b);
    }
    assert (a / b).Floor == 0;
  }

  lemma FloorShift(v: real, k: int)
    ensures (v + k as real).Floor == v.Floor + k
  {
  }

  /** Adding whole multiples of the divisor leaves the remainder unchanged. */
  lemma FloorModShift(a: real, b: real, k: int)
    requires b != 0.0
    ensures FloorMod(a + (k as real) * b, b) == FloorMod(a, b)
  {
    var q := (a / b).Floor;
    QuotientShift(a, b, k);
    FloorShift(a / b, k);
    assert ((a + (k as real) * b) / b).Floor == q + k;
    DistributeWhole(b, q, k);
  }

  /** Shifting the dividend by `k` divisors shifts the quotient by `k`. */
  lemma QuotientShift(a: real, b: real, k: int)
    requires b != 0.0
    ensures (a + (k as real) * b) / b == a / b + k as real
  {
    var u := a / b;
    var v := (a + (k as real) * b) / b;
    assert a == u * b;
    assert v * b == a + (k as real) * b;
    assert (v - (u + k as real)) * b == 0.0;
  }

  lemma DistributeWhole(b: real, q: int, k: int)
    ensures b * ((q + k) as real) == b * (q as real) + (k as real) * b
  {
  }

  /** Inside the unit square the coordinates are scaled and nothing else. */
  lemma WrapInsideUnit(v: real, size: real)
    requires 0.0 <= v < 1.0 && 0.0 < size
    ensures WrapAxis(v, size) == Some(v * size)
  {
    assert 0.0 <= v * size;
    assert v * size < size by {
      calc {
        v * size;
        < 1.0 * size;
        size;
      }
    }
    FloorModSmall(v * size, size);
  }

  /** The texture repeats: moving a whole number of textures along an axis changes nothing. */
  lemma WrapPeriodic(v: real, k: int, size: real)
    ensures WrapAxis(v + k as real, size) == WrapAxis(v, size)
  {
    if size != 0.0 {
      assert (v + k as real) * size == v * size + (k as real) * size;
      FloorModShift(v * size, size, k);
    }
  }

  /** The two axes do not interact, and repeat independently. */
  lemma AbsolutePeriodic(x: real, y: real, i: int, j: int, width: real, height: real)
    ensures ToAbsoluteCoordinates(x + i as real, y + j as real, width, height)
         == ToAbsoluteCoordinates(x, y, width, height)
  {
    WrapPeriodic(x, i, width);
    WrapPeriodic(y, j, height);
  }
}

=== FILE: planes.dfy ===
/**
 * Infinite planes: one-sided ray intersection, the constant surface normal
 * and planar texture coordinates.
 */
module Planes {
  import opened Wrappers
  import opened Vectors
  import opened Materials

  /** A plane through `origin`; `normal` is taken to be of unit length already. */
  datatype Plane = Plane(origin: Vec3, normal: Vec3, material: Material)

  /**
   * Rays whose direction makes `normal·direction` smaller than this are
   * treated as parallel to the plane, or as approaching it from the side
   * the normal points to.
   */
  const ParallelEpsilon: real := 0.001

  /** `q` lies on the plane. */
  predicate OnPlane(p: Plane, q: Vec3) {
    Dot(Sub(q, p.origin), p.normal) == 0.0
  }

  /**
   * `intersection_with`: no hit unless `normal·direction` reaches the
   * epsilon; otherwise the distance along the ray to the plane, kept only
   * when it is positive.
   */
  function Intersection(p: Plane, ray: Ray): (r: Option<real>)
    ensures Dot(p.normal, ray.direction) < ParallelEpsilon ==> r.None?
    ensures r.Some? ==> 0.0 < r.value && OnPlane(p, At(ray, r.value))
  {
    var denom := Dot(p.normal, ray.direction);
    if denom < ParallelEpsilon then None
    else
      var v := Sub(p.origin, ray.origin);
      var distance := Dot(v, p.normal) / denom;
      assert OnPlane(p, At(ray, distance)) by {
        OnPlaneAt(p, ray, distance);
      }
      if 0.0 < distance then Some(distance) else None
  }

  /** The plane equation along the ray: linear in `t` with slope `normal·direction`. */
  lemma OnPlaneAt(p: Plane, ray: Ray, t: real)
    requires Dot(p.normal, ray.direction) != 0.0
    ensures OnPlane(p, At(ray, t))
        <==> t == Dot(Sub(p.origin, ray.origin), p.normal) / Dot(p.normal, ray.direction)
  {
    var denom := Dot(p.normal, ray.direction);
    var num := Dot(Sub(p.origin, ray.origin), p.normal);
    assert Dot(Sub(At(ray, t), p.origin), p.normal) == t * denom - num;
    if t * denom - num == 0.0 {
      assert t == num / denom;
    }
  }

  /**
   * The plane is hit exactly when the ray meets the epsilon test and some
   * point strictly ahead of the ray origin lies on the plane; that point is
   * the only one, and it is the distance returned.
   */
  lemma HitIffForwardPoint(p: Plane, ray: Ray)
    ensures Intersection(p, ray).Some? <==>
      ParallelEpsilon <= Dot(p.normal, ray.direction) && exists t :: 0.0 < t && OnPlane(p, At(ray, t))
    ensures forall t :: Intersection(p, ray).Some? && OnPlane(p, At(ray, t)) ==> t == Intersection(p, ray).value
  {
    if ParallelEpsilon <= Dot(p.normal, ray.direction) {
      forall t | OnPlane(p, At(ray, t))
        ensures t == Dot(Sub(p.origin, ray.origin), p.normal) / Dot(p.normal, ray.direction)
      {
        OnPlaneAt(p, ray, t);
      }
    }
  }

  /** `surface_normal`: the reversed plane normal, the same at every point. */
  function SurfaceNormal(p: Plane, hit: Vec3): (n: Vec3)
    ensures Dot(n, p.normal) == -Dot(p.normal, p.normal)
    ensures Add(n, p.normal) == Zero
  {
    Neg(p.normal)
  }

  /** Every ray that hits the plane meets the surface normal head-on: they point against each other. */
  lemma NormalFacesRay(p: Plane, ray: Ray, hit: Vec3)
    requires Intersection(p, ray).Some?
    ensures Dot(SurfaceNormal(p, hit), ray.direction) <= -ParallelEpsilon
  {
  }

  /**
   * The first texture axis: `normal × (0, 0, 1)`, or `normal × (0, 1, 0)`
   * when the first has zero magnitude.
   */
  function XAxis(n: Vec3, sqrt: real -> real): Vec3
    requires IsSqrt(sqrt)
  {
    var first := Cross(n, Vec3(0.0, 0.0, 1.0));
    if Magnitude(first, sqrt) == 0.0 then Cross(n, Vec3(0.0, 1.0, 0.0)) else first
  }

  /** Neither candidate axis is zero unless `n` is: `n × (0,0,1)` vanishes only when `n` is along the z axis. */
  lemma CandidateAxesNonZero(n: Vec3)
    ensures n != Zero ==> Cross(n, Vec3(0.0, 0.0, 1.0)) != Zero || Cross(n, Vec3(0.0, 1.0, 0.0)) != Zero
  {
  }

  /** `x_axis` falls back to the second candidate exactly when the first is the zero vector. */
  lemma XAxisChoice(n: Vec3, sqrt: real -> real)
    requires IsSqrt(sqrt)
    ensures var first := Cross(n, Vec3(0.0, 0.0, 1.0));
      XAxis(n, sqrt) == if first == Zero then Cross(n, Vec3(0.0, 1.0, 0.0)) else first
  {
    var first := Cross(n, Vec3(0.0, 0.0, 1.0));
    assert Magnitude(first, sqrt) == 0.0 <==> first == Zero;
  }

  /** The first texture axis is perpendicular to the normal, and not zero for a non-zero normal. */
  lemma XAxisFacts(n: Vec3, sqrt: real -> real)
    requires IsSqrt(sqrt)
    ensures Dot(XAxis(n, sqrt), n) == 0.0
    ensures n != Zero ==> XAxis(n, sqrt) != Zero
  {
    var first := Cross(n, Vec3(0.0, 0.0, 1.0));
    var second := Cross(n, Vec3(0.0, 1.0, 0.0));
    XAxisChoice(n, sqrt);
    CandidateAxesNonZero(n);
    if first == Zero {
      CrossPerpendicular(n, Vec3(0.0, 1.0, 0.0));
      DotSymmetric(n, second);
    } else {
      CrossPerpendicular(n, Vec3(0.0, 0.0, 1.0));
      DotSymmetric(n, first);
    }
  }

  /** The second texture axis: `normal × x_axis`. */
  function YAxis(n: Vec3, sqrt: real -> real): Vec3
    requires IsSqrt(sqrt)
  {
    Cross(n, XAxis(n, sqrt))
  }

  /**
   * The texture axes are perpendicular to the normal and to each other, and
   * for a non-zero normal the first one is not zero.
   */
  lemma TextureAxes(n: Vec3, sqrt: real -> real)
    requires IsSqrt(sqrt)
    ensures Dot(XAxis(n, sqrt), n) == 0.0
    ensures Dot(YAxis(n, sqrt), n) == 0.0
    ensures Dot(YAxis(n, sqrt), XAxis(n, sqrt)) == 0.0
    ensures n != Zero ==> XAxis(n, sqrt) != Zero
  {
    var x := XAxis(n, sqrt);
    XAxisFacts(n, sqrt);
    CrossPerpendicular(n, x);
    DotSymmetric(n, Cross(n, x));
    DotSymmetric(x, Cross(n, x));
  }

  /**
   * `texture_coordinates`: the offset of the hit point from the plane
   * origin, measured along the two texture axes. The plane origin maps to
   * `(0, 0)`.
   */
  function TextureCoordinates(p: Plane, hit: Vec3, sqrt: real -> real): (r: (real, real))
    requires IsSqrt(sqrt)
    ensures hit == p.origin ==> r == (0.0, 0.0)
  {
    var hitVec := Sub(hit, p.origin);
    (Dot(hitVec, XAxis(p.normal, sqrt)), Dot(hitVec, YAxis(p.normal, sqrt)))
  }

  /** Moving the hit point along the normal does not move its texture coordinates. */
  lemma TextureIgnoresNormalOffset(p: Plane, hit: Vec3, k: real, sqrt: real -> real)
    requires IsSqrt(sqrt)
    ensures TextureCoordinates(p, Add(hit, Scale(k, p.normal)), sqrt) == TextureCoordinates(p, hit, sqrt)
  {
    var n := p.normal;
    TextureAxes(n, sqrt);
    CoordinateIgnoresOffset(hit, p.origin, k, n, XAxis(n, sqrt));
    CoordinateIgnoresOffset(hit, p.origin, k, n, YAxis(n, sqrt));
  }

  /** One texture coordinate, along an axis perpendicular to `n`, ignores an offset along `n`. */
  lemma CoordinateIgnoresOffset(hit: Vec3, origin: Vec3, k: real, n: Vec3, axis: Vec3)
    requires Dot(axis, n) == 0.0
    ensures Dot(Sub(Add(hit, Scale(k, n)), origin), axis) == Dot(Sub(hit, origin), axis)
  {
    var hitVec := Sub(hit, origin);
    assert Sub(Add(hit, Scale(k, n)), origin) == Add(hitVec, Scale(k, n));
    PerpendicularOffset(hitVec, k, n, axis);
  }

  /** Adding a multiple of `n` to `v` does not change its component along an axis perpendicular to `n`. */
  lemma PerpendicularOffset(v: Vec3, k: real, n: Vec3, axis: Vec3)
    requires Dot(axis, n) == 0.0
    ensures Dot(Add(v, Scale(k, n)), axis) == Dot(v, axis)
  {
    DotAddLeft(v, Scale(k, n), axis);
    DotScaleLeft(k, n, axis);
    DotSymmetric(n, axis);
  }
}

=== FILE: scenes.dfy ===
/**
 * The scene: a list of models, an image size, a field-of-view factor and a
 * list of lights. Rendering maps every pixel to a camera ray, finds the
 * closest model the ray hits and, when there are lights, works out one
 * light colour per light from a shadow test and a clamped Lambert term.
 *
 * `Math.tan` of the field of view is a foreign call: the scene carries the
 * resulting `fovAdjustment` factor instead of the angle. Lights are
 * abstract: their direction, intensity and distance are functions of the
 * hit point supplied with the light.
 */
module Scenes {
  import opened Wrappers
  import opened Vectors
  import opened Colors
  import opened Materials
  import Spheres
  import Planes

  // ---------------------------------------------------------------------
  // Models
  // ---------------------------------------------------------------------

  datatype Model = SphereModel(sphere: Spheres.Sphere) | PlaneModel(plane: Planes.Plane)

  function ModelIntersection(m: Model, ray: Ray, sqrt: real -> real): Option<real>
    requires IsSqrt(sqrt)
  {
    match m
    case SphereModel(s) => Spheres.Intersection(s, ray, sqrt)
    case PlaneModel(p) => Planes.Intersection(p, ray)
  }

  /** `surface_normal`; `None` where normalising a zero vector raises. */
  function ModelSurfaceNormal(m: Model, hit: Vec3, sqrt: real -> real): Option<Vec3>
    requires IsSqrt(sqrt)
  {
    match m
    case SphereModel(s) => Spheres.SurfaceNormal(s, hit, sqrt)
    case PlaneModel(p) => Some(Planes.SurfaceNormal(p, hit))
  }

  function ModelMaterial(m: Model): Material {
    match m
    case SphereModel(s) => s.material
    case PlaneModel(p) => p.material
  }

  /**
   * A light seen from the renderer: its colour and the three queries it answers
   * for a surface point. `distanceFrom` is `None` for a light infinitely far
   * away, such as a directional light, whose Ruby distance is `Float::INFINITY`.
   */
  datatype Light = Light(
    color: Color,
    directionFrom: Vec3 -> Vec3,
    intensityAt: Vec3 -> real,
    distanceFrom: Vec3 -> Option<real>)

  datatype Scene = Scene(
    models: seq<Model>,
    width: int,
    height: int,
    fovAdjustment: real,
    lights: seq<Light>)

  /** The offset along the surface normal that keeps a shadow ray off its own surface. */
  const ShadowBias: real := 0.0000000000001

  /** The value of `Math::PI`. */
  const Pi: real := 3.141592653589793

  // ---------------------------------------------------------------------
  // Camera
  // ---------------------------------------------------------------------

  /** `@aspect_ratio`: the larger image dimension over the smaller. */
  function AspectRatio(width: int, height: int): (r: real)
    requires 0 < width && 0 < height
    ensures 1.0 <= r
    ensures width <= height ==> r * width as real == height as real
    ensures height <= width ==> r * height as real == width as real
  {
    if width > height then width as real / height as real else height as real / width as real
  }

  /** Only the two dimensions matter, not which of them is the width. */
  lemma AspectSymmetric(width: int, height: int)
    requires 0 < width && 0 < height
    ensures AspectRatio(width, height) == AspectRatio(height, width)
  {
  }

  /** The centre of column `x` mapped into `(-1, 1)`, left to right. */
  function PixelX(x: int, width: int): (r: real)
    requires 0 < width
    ensures 0 <= x < width ==> -1.0 < r < 1.0
  {
    var u := (x as real + 0.5) / width as real;
    assert 0 <= x < width ==> 0.0 < u < 1.0 by {
      if 0 <= x < width {
        CentreInside(x, width);
      }
    }
    u * 2.0 - 1.0
  }

  /** The centre of row `y` mapped into `(-1, 1)`, top to bottom: the vertical axis points up. */
  function PixelY(y: int, height: int): (r: real)
    requires 0 < height
    ensures 0 <= y < height ==> -1.0 < r < 1.0
  {
    var u := (y as real + 0.5) / height as real;
    assert 0 <= y < height ==> 0.0 < u < 1.0 by {
      if 0 <= y < height {
        CentreInside(y, height);
      }
    }
    1.0 - u * 2.0
  }

  /** The centre of cell `i` of `size` cells lies strictly inside the unit interval. */
  lemma CentreInside(i: int, size: int)
    requires 0 <= i < size
    ensures 0.0 < (i as real + 0.5) / size as real < 1.0
  {
    var a := i as real + 0.5;
    var w := size as real;
    var u := a / w;
    assert a == u * w;
    ScaleByPositive(u, w);
  }

  /** Multiplying by a positive number keeps the sign, and keeps a factor of at least one at least as large. */
  lemma ScaleByPositive(u: real, w: real)
    requires 0.0 < w
    ensures u <= 0.0 ==> u * w <= 0.0
    ensures 1.0 <= u ==> w <= u * w
  {
    if 1.0 <= u {
      assert 0.0 <= (u - 1.0) * w;
    }
  }

  /** A non-zero factor cancels. */
  lemma CancelFactor(p: real, q: real, w: real)
    requires w != 0.0 && p * w == q * w
    ensures p == q
  {
    assert (p - q) * w == 0.0;
  }

  /** Splitting a quotient: `(w - a) / w == 1 - a / w`. */
  lemma ComplementQuotient(a: real, w: real)
    requires 0.0 < w
    ensures (w - a) / w == 1.0 - a / w
  {
    var u := a / w;
    var v := (w - a) / w;
    assert a == u * w;
    assert v * w == w - a;
    assert (1.0 - u) * w == w - a;
    CancelFactor(v, 1.0 - u, w);
  }

  /** Columns mirrored about the centre get opposite values. */
  lemma PixelXMirror(x: int, width: int)
    requires 0 < width
    ensures PixelX(width - 1 - x, width) == -PixelX(x, width)
  {
    var w := width as real;
    calc {
      PixelX(width - 1 - x, width);
      ((w - 1.0 - x as real + 0.5) / w) * 2.0 - 1.0;
      ((w - (x as real + 0.5)) / w) * 2.0 - 1.0;
      { ComplementQuotient(x as real + 0.5, w); }
      (1.0 - (x as real + 0.5) / w) * 2.0 - 1.0;
      -PixelX(x, width);
    }
  }

  /** Rows use the columns' map turned upside down, so the top row is above the centre. */
  lemma PixelYFlipped(y: int, height: int)
    requires 0 < height
    ensures PixelY(y, height) == -PixelX(y, height)
    ensures 1 < height ==> 0.0 < PixelY(0, height)
    ensures PixelY(height - 1 - y, height) == -PixelY(y, height)
  {
    if 1 < height {
      assert 0.5 / height as real < 0.5;
    }
    PixelXMirror(y, height);
  }

  /**
   * The unnormalised camera direction through the centre of pixel `(x, y)`:
   * both offsets scaled by the field-of-view factor, and the one along the
   * longer image side also by the aspect ratio. The image plane is at `z = -1`.
   */
  function ImagePlaneDirection(scene: Scene, x: int, y: int): (d: Vec3)
    requires 0 < scene.width && 0 < scene.height
    ensures d.z == -1.0
  {
    var rayX := PixelX(x, scene.width) * scene.fovAdjustment;
    var rayY := PixelY(y, scene.height) * scene.fovAdjustment;
    var aspect := AspectRatio(scene.width, scene.height);
    if scene.width > scene.height then Vec3(rayX * aspect, rayY, -1.0)
    else Vec3(rayX, rayY * aspect, -1.0)
  }

  /**
   * The aspect correction stretches exactly one offset: the horizontal one
   * for a wide image, the vertical one otherwise.
   */
  lemma AspectCorrection(scene: Scene, x: int, y: int)
    requires 0 < scene.width && 0 < scene.height
    ensures var d := ImagePlaneDirection(scene, x, y);
      var aspect := AspectRatio(scene.width, scene.height);
      var rayX := PixelX(x, scene.width) * scene.fovAdjustment;
      var rayY := PixelY(y, scene.height) * scene.fovAdjustment;
      if scene.width > scene.height then d.x == rayX * aspect && d.y == rayY
      else d.x == rayX && d.y == rayY * aspect
    ensures scene.width == scene.height ==> AspectRatio(scene.width, scene.height) == 1.0
  {
  }

  /**
   * Pixels are square on the image plane: a step of one column moves the
   * direction sideways by as much as a step of one row moves it down, and
   * leaves the vertical offset alone.
   */
  lemma SquarePixels(scene: Scene, x: int, y: int)
    requires 0 < scene.width && 0 < scene.height
    ensures ImagePlaneDirection(scene, x + 1, y).y == ImagePlaneDirection(scene, x, y).y
    ensures ImagePlaneDirection(scene, x, y + 1).x == ImagePlaneDirection(scene, x, y).x
    ensures ImagePlaneDirection(scene, x + 1, y).x - ImagePlaneDirection(scene, x, y).x
         == ImagePlaneDirection(scene, x, y).y - ImagePlaneDirection(scene, x, y + 1).y
  {
    ColumnStep(scene, x, y);
    RowStep(scene, x, y);
  }

  /** The distance between neighbouring pixel centres on the image plane: `2 / shorter side`, scaled by the field of view. */
  function PixelPitch(scene: Scene): real
    requires 0 < scene.width && 0 < scene.height
  {
    (2.0 / (if scene.width < scene.height then scene.width else scene.height) as real) * scene.fovAdjustment
  }

  /** One column to the right moves the direction sideways by one pitch, and not vertically. */
  lemma ColumnStep(scene: Scene, x: int, y: int)
    requires 0 < scene.width && 0 < scene.height
    ensures ImagePlaneDirection(scene, x + 1, y).y == ImagePlaneDirection(scene, x, y).y
    ensures ImagePlaneDirection(scene, x + 1, y).x - ImagePlaneDirection(scene, x, y).x == PixelPitch(scene)
  {
    var w := scene.width as real;
    var h := scene.height as real;
    var f := scene.fovAdjustment;
    var aspect := AspectRatio(scene.width, scene.height);
    var px0, px1 := PixelX(x, scene.width), PixelX(x + 1, scene.width);
    UnitStep(x as real, w);
    if scene.width > scene.height {
      StepOnPlane(px1, px0, f, aspect, w, h, true);
      WideColumn(scene, x, y);
    } else {
      StepOnPlane(px1, px0, f, aspect, w, h, false);
      NarrowColumn(scene, x, y);
    }
  }

  // WideColumn/NarrowColumn and TallRow/FlatRow split `ColumnStep` and `RowStep` by aspect
  // case, and StepOnPlane does their shared arithmetic, so that each proof stays small.

  /** Neighbouring columns of a wide image, in terms of their stretched offsets. */
  lemma WideColumn(scene: Scene, x: int, y: int)
    requires 0 < scene.height < scene.width
    ensures var f := scene.fovAdjustment;
      var aspect := AspectRatio(scene.width, scene.height);
      && ImagePlaneDirection(scene, x + 1, y).y == ImagePlaneDirection(scene, x, y).y
      && ImagePlaneDirection(scene, x + 1, y).x - ImagePlaneDirection(scene, x, y).x
         == PixelX(x + 1, scene.width) * f * aspect - PixelX(x, scene.width) * f * aspect
      && PixelPitch(scene) == (2.0 / scene.height as real) * f
  {
  }

  /** Neighbouring columns of an image at most as wide as it is tall. */
  lemma NarrowColumn(scene: Scene, x: int, y: int)
    requires 0 < scene.width <= scene.height
    ensures var f := scene.fovAdjustment;
      && ImagePlaneDirection(scene, x + 1, y).y == ImagePlaneDirection(scene, x, y).y
      && ImagePlaneDirection(scene, x + 1, y).x - ImagePlaneDirection(scene, x, y).x
         == PixelX(x + 1, scene.width) * f - PixelX(x, scene.width) * f
      && PixelPitch(scene) == (2.0 / scene.width as real) * f
  {
  }

  /** One row down moves the direction down by one pitch, and not sideways. */
  lemma RowStep(scene: Scene, x: int, y: int)
    requires 0 < scene.width && 0 < scene.height
    ensures ImagePlaneDirection(scene, x, y + 1).x == ImagePlaneDirection(scene, x, y).x
    ensures ImagePlaneDirection(scene, x, y).y - ImagePlaneDirection(scene, x, y + 1).y == PixelPitch(scene)
  {
    var w := scene.width as real;
    var h := scene.height as real;
    var f := scene.fovAdjustment;
    var aspect := AspectRatio(scene.width, scene.height);
    var py0, py1 := PixelY(y, scene.height), PixelY(y + 1, scene.height);
    UnitStep(y as real, h);
    if scene.width < scene.height {
      StepOnPlane(py0, py1, f, aspect, h, w, true);
      TallRow(scene, x, y);
    } else {
      StepOnPlane(py0, py1, f, aspect, h, w, false);
      FlatRow(scene, x, y);
    }
  }

  /** Neighbouring rows of a tall image, in terms of their stretched offsets. */
  lemma TallRow(scene: Scene, x: int, y: int)
    requires 0 < scene.width < scene.height
    ensures var f := scene.fovAdjustment;
      var aspect := AspectRatio(scene.width, scene.height);
      && ImagePlaneDirection(scene, x, y + 1).x == ImagePlaneDirection(scene, x, y).x
      && ImagePlaneDirection(scene, x, y).y - ImagePlaneDirection(scene, x, y + 1).y
         == PixelY(y, scene.height) * f * aspect - PixelY(y + 1, scene.height) * f * aspect
      && PixelPitch(scene) == (2.0 / scene.width as real) * f
  {
  }

  /** Neighbouring rows of an image at least as wide as it is tall. */
  lemma FlatRow(scene: Scene, x: int, y: int)
    requires 0 < scene.height <= scene.width
    ensures var f := scene.fovAdjustment;
      && ImagePlaneDirection(scene, x, y + 1).x == ImagePlaneDirection(scene, x, y).x
      && ImagePlaneDirection(scene, x, y).y - ImagePlaneDirection(scene, x, y + 1).y
         == PixelY(y, scene.height) * f - PixelY(y + 1, scene.height) * f
      && PixelPitch(scene) == (2.0 / scene.height as real) * f
  {
  }

  /**
   * A step of `2 / size` on the `(-1, 1)` scale, scaled by the field of view
   * and, when this side is the longer one, by the aspect ratio.
   */
  lemma StepOnPlane(p0: real, p1: real, f: real, aspect: real, size: real, other: real, stretched: bool)
    requires 0.0 < size && 0.0 < other && p0 - p1 == 2.0 / size
    requires stretched ==> aspect * other == size
    ensures stretched ==> p0 * f * aspect - p1 * f * aspect == (2.0 / other) * f
    ensures !stretched ==> p0 * f - p1 * f == (2.0 / size) * f
  {
    ScaledDifference(p0, p1, f);
    if stretched {
      ScaledDifference(p0 * f, p1 * f, aspect);
      StepTimesAspect(size, other, aspect, f);
    }
  }

  lemma ScaledDifference(p: real, q: real, k: real)
    ensures p * k - q * k == (p - q) * k
  {
  }

  /** Neighbouring columns, and neighbouring rows, are `2 / size` apart on the `(-1, 1)` scale. */
  lemma PixelSteps(x: int, width: int, y: int, height: int)
    requires 0 < width && 0 < height
    ensures PixelX(x + 1, width) - PixelX(x, width) == 2.0 / width as real
    ensures PixelY(y, height) - PixelY(y + 1, height) == 2.0 / height as real
  {
    UnitStep(x as real, width as real);
    UnitStep(y as real, height as real);
  }

  /** Moving the pixel index by one moves its centre by `2 / size` on the `(-1, 1)` scale. */
  lemma UnitStep(i: real, size: real)
    requires 0.0 < size
    ensures ((i + 1.0 + 0.5) / size) * 2.0 - ((i + 0.5) / size) * 2.0 == 2.0 / size
  {
    assert (i + 1.0 + 0.5) / size == (i + 0.5) / size + 1.0 / size;
  }

  /** A step of `2 / long` scaled by `long / short` is a step of `2 / short`. */
  lemma StepTimesAspect(long: real, short: real, aspect: real, f: real)
    requires 0.0 < long && 0.0 < short && aspect * short == long
    ensures (2.0 / long) * f * aspect == (2.0 / short) * f
  {
    assert aspect == long / short;
    calc {
      (2.0 / long) * f * aspect;
      (2.0 / long) * f * (long / short);
      { assert (2.0 / long) * (long / short) == 2.0 / short; }
      (2.0 / short) * f;
    }
  }

  /** The camera ray through pixel `(x, y)`: from the origin, along the normalised image-plane direction. */
  function CameraRay(scene: Scene, x: int, y: int, sqrt: real -> real): (r: Ray)
    requires IsSqrt(sqrt)
    requires 0 < scene.width && 0 < scene.height
    ensures r.origin == Zero
    ensures Dot(r.direction, r.direction) == 1.0
    ensures exists k: real :: 0.0 < k && r.direction == Scale(k, ImagePlaneDirection(scene, x, y))
  {
    var d := ImagePlaneDirection(scene, x, y);
    var n := Normalize(d, sqrt);
    assert n.Some?;
    Ray(Zero, n.value)
  }

  // ---------------------------------------------------------------------
  // Closest hit
  // ---------------------------------------------------------------------

  /** A hit: which model (by position in the list) and at what distance. */
  datatype Hit = Hit(index: nat, distance: real)

  /**
   * The smallest of the present distances, with its position; `None` when
   * every distance is absent. Among equal distances the earliest wins.
   */
  function ClosestAmong(ds: seq<Option<real>>): (r: Option<Hit>)
    ensures r.None? <==> forall i :: 0 <= i < |ds| ==> ds[i].None?
    ensures r.Some? ==> r.value.index < |ds| && ds[r.value.index] == Some(r.value.distance)
    ensures r.Some? ==> forall i :: 0 <= i < |ds| && ds[i].Some? ==> r.value.distance <= ds[i].value
    ensures r.Some? ==> forall i :: 0 <= i < r.value.index && ds[i].Some? ==> r.value.distance < ds[i].value
  {
    if |ds| == 0 then None
    else
      var rest := ClosestAmong(ds[..|ds| - 1]);
      var last := ds[|ds| - 1];
      if last.None? || (rest.Some? && rest.value.distance <= last.value) then rest
      else Some(Hit(|ds| - 1, last.value))
  }

  /** Every model's intersection with `ray`, in model order. */
  function Distances(models: seq<Model>, ray: Ray, sqrt: real -> real): (ds: seq<Option<real>>)
    requires IsSqrt(sqrt)
    ensures |ds| == |models|
    ensures forall i :: 0 <= i < |models| ==> ds[i] == ModelIntersection(models[i], ray, sqrt)
  {
    if |models| == 0 then []
    else Distances(models[..|models| - 1], ray, sqrt) + [ModelIntersection(models[|models| - 1], ray, sqrt)]
  }

  /**
   * `closest_intersection_of`: the model with the smallest intersection
   * distance, or `None` when every model misses. Non-positive distances
   * are not filtered out.
   */
  function ClosestIntersection(models: seq<Model>, ray: Ray, sqrt: real -> real): (r: Option<Hit>)
    requires IsSqrt(sqrt)
    ensures r.None? <==> forall i :: 0 <= i < |models| ==> ModelIntersection(models[i], ray, sqrt).None?
    ensures r.Some? ==>
      && r.value.index < |models|
      && ModelIntersection(models[r.value.index], ray, sqrt) == Some(r.value.distance)
    ensures r.Some? ==> forall i :: 0 <= i < |models| && ModelIntersection(models[i], ray, sqrt).Some? ==>
      r.value.distance <= ModelIntersection(models[i], ray, sqrt).value
  {
    ClosestAmong(Distances(models, ray, sqrt))
  }

  // ---------------------------------------------------------------------
  // Lighting
  // ---------------------------------------------------------------------

  /**
   * The shadow ray towards a light: from the hit point nudged along the
   * surface normal, in the normalised direction to the light. `None` where
   * normalising a zero direction raises.
   */
  function ShadowRay(hit: Vec3, normal: Vec3, toLight: Vec3, sqrt: real -> real): (r: Option<Ray>)
    requires IsSqrt(sqrt)
    ensures r.None? <==> toLight == Zero
    ensures r.Some? ==> r.value.origin == Add(hit, Scale(ShadowBias, normal))
    ensures r.Some? ==> Dot(r.value.direction, r.value.direction) == 1.0
    ensures r.Some? ==> exists k: real :: 0.0 < k && r.value.direction == Scale(k, toLight)
  {
    match Normalize(toLight, sqrt)
    case None => None
    case Some(d) => Some(Ray(Add(hit, Scale(ShadowBias, normal)), d))
  }

  /**
   * `lit`: nothing is hit along the shadow ray, or the nearest hit is beyond the
   * light. No finite distance exceeds an infinite one, so a light infinitely far
   * away is lit only when the shadow ray meets nothing.
   */
  predicate IsLit(shadowHit: Option<Hit>, lightDistance: Option<real>) {
    shadowHit.None? || (lightDistance.Some? && shadowHit.value.distance > lightDistance.value)
  }

  /** A light is lit exactly when no model lies on the shadow ray at or before the light. */
  lemma LitIffNothingNearer(models: seq<Model>, shadowRay: Ray, lightDistance: Option<real>, sqrt: real -> real)
    requires IsSqrt(sqrt)
    ensures lightDistance.Some? ==>
      (IsLit(ClosestIntersection(models, shadowRay, sqrt), lightDistance) <==>
        forall i :: 0 <= i < |models| ==>
          var d := ModelIntersection(models[i], shadowRay, sqrt);
          d.None? || d.value > lightDistance.value)
    ensures lightDistance.None? ==>
      (IsLit(ClosestIntersection(models, shadowRay, sqrt), lightDistance) <==>
        forall i :: 0 <= i < |models| ==> ModelIntersection(models[i], shadowRay, sqrt).None?)
  {
  }

  /**
   * The Lambert term `normal·direction × intensity` before any clamping. It is
   * named so that lemmas about the power share one term instead of a product.
   */
  function Lambert(normal: Vec3, toLight: Vec3, intensity: real): real {
    Dot(normal, toLight) * intensity
  }

  /** `light_power`: the Lambert term, clamped below at zero. */
  function LightPower(normal: Vec3, toLight: Vec3, intensity: real): (p: real)
    ensures 0.0 <= p
    ensures Lambert(normal, toLight, intensity) <= p
    ensures p == 0.0 || p == Lambert(normal, toLight, intensity)
  {
    var power := Lambert(normal, toLight, intensity);
    if power < 0.0 then 0.0 else power
  }

  /** No light arrives without intensity, nor at a surface facing away from the light. */
  lemma PowerVanishes(normal: Vec3, toLight: Vec3, intensity: real)
    requires intensity == 0.0 || (0.0 <= intensity && Dot(normal, toLight) <= 0.0)
    ensures LightPower(normal, toLight, intensity) == 0.0
  {
    var c := Dot(normal, toLight);
    if intensity != 0.0 {
      assert c * intensity <= 0.0 by {
        assert 0.0 <= (-c) * intensity;
      }
    }
  }

  /**
   * The Lambert factor `albedo / π` applied to a channel, truncated and
   * capped at 255: for a non-negative product the channel is 255 exactly
   * when the product reaches 255, and otherwise its integer part.
   */
  function LightChannel(c: int, power: real, albedo: real): (r: int)
    ensures r <= 255
    ensures 0 <= c && 0.0 <= power && 0.0 <= albedo ==> 0 <= r
    ensures power == 0.0 ==> r == 0
    ensures var v := (c as real * power) * (albedo / Pi);
      0.0 <= v ==> (r == 255 <==> 255.0 <= v) && (r < 255 ==> r as real <= v < r as real + 1.0)
  {
    var v := (c as real * power) * (albedo / Pi);
    assert 0 <= c && 0.0 <= power && 0.0 <= albedo ==> 0.0 <= v by {
      if 0 <= c && 0.0 <= power && 0.0 <= albedo {
        assert 0.0 <= c as real * power;
        assert 0.0 <= albedo / Pi;
      }
    }
    MinInt(Trunc(v), 255)
  }

  /** `light_color`: every channel of the light's colour through `LightChannel`. */
  function LightColor(light: Color, power: real, albedo: real): (r: Color)
    ensures r.red == LightChannel(light.red, power, albedo)
    ensures r.green == LightChannel(light.green, power, albedo)
    ensures r.blue == LightChannel(light.blue, power, albedo)
    ensures IsByteColor(light) && 0.0 <= power && 0.0 <= albedo ==> IsByteColor(r)
    ensures power == 0.0 ==> r == Black
  {
    Color(
      LightChannel(light.red, power, albedo),
      LightChannel(light.green, power, albedo),
      LightChannel(light.blue, power, albedo))
  }

  /**
   * What aborts a render: normalising a zero vector, or the `Math.acos`
   * domain error of a sphere's texture lookup.
   */
  datatype RenderError = ZeroVector | TextureDomain

  /** `closest[0].texture_coordinates(hit_point)` raises; only spheres can. */
  predicate TextureRaises(m: Model, hit: Vec3) {
    m.SphereModel? && Spheres.TextureRaises(m.sphere, hit)
  }

  /**
   * The colour one light contributes at a hit point: the shadow test picks
   * the intensity, which gives the power and then the channels.
   */
  function ShadeLight(models: seq<Model>, albedo: real, hit: Vec3, normal: Vec3, light: Light, sqrt: real -> real)
    : (r: Result<Color, RenderError>)
    requires IsSqrt(sqrt)
    ensures r.Failure? <==> light.directionFrom(hit) == Zero
    ensures r.Failure? ==> r.error == ZeroVector
  {
    var toLight := light.directionFrom(hit);
    match ShadowRay(hit, normal, toLight, sqrt)
    case None => Failure(ZeroVector)
    case Some(shadowRay) =>
      var lit := IsLit(ClosestIntersection(models, shadowRay, sqrt), light.distanceFrom(hit));
      var intensity := if lit then light.intensityAt(hit) else 0.0;
      Success(LightColor(light.color, LightPower(normal, toLight, intensity), albedo))
  }

  /** A light hidden behind another model contributes black. */
  lemma ShadowedIsBlack(models: seq<Model>, albedo: real, hit: Vec3, normal: Vec3, light: Light, sqrt: real -> real)
    requires IsSqrt(sqrt)
    requires var toLight := light.directionFrom(hit);
      && toLight != Zero
      && !IsLit(ClosestIntersection(models, ShadowRay(hit, normal, toLight, sqrt).value, sqrt), light.distanceFrom(hit))
    ensures ShadeLight(models, albedo, hit, normal, light, sqrt) == Success(Black)
  {
    PowerVanishes(normal, light.directionFrom(hit), 0.0);
  }

  /**
   * A lit light in front of the surface contributes its colour scaled
   * channel by channel by the Lambert term `normal·direction × intensity`.
   */
  lemma LitFrontLight(models: seq<Model>, albedo: real, hit: Vec3, normal: Vec3, light: Light, sqrt: real -> real)
    requires IsSqrt(sqrt)
    requires var toLight := light.directionFrom(hit);
      && toLight != Zero
      && IsLit(ClosestIntersection(models, ShadowRay(hit, normal, toLight, sqrt).value, sqrt), light.distanceFrom(hit))
      && 0.0 <= Lambert(normal, toLight, light.intensityAt(hit))
    ensures ShadeLight(models, albedo, hit, normal, light, sqrt)
         == Success(LightColor(light.color, Lambert(normal, light.directionFrom(hit), light.intensityAt(hit)), albedo))
  {
    PowerInFront(normal, light.directionFrom(hit), light.intensityAt(hit));
  }

  /** In front of the surface the power is the Lambert term itself, unclamped. */
  lemma PowerInFront(normal: Vec3, toLight: Vec3, intensity: real)
    requires 0.0 <= Lambert(normal, toLight, intensity)
    ensures LightPower(normal, toLight, intensity) == Lambert(normal, toLight, intensity)
  {
  }

  /** A light on the far side of the surface contributes black, whether or not it is shadowed. */
  lemma BehindIsBlack(models: seq<Model>, albedo: real, hit: Vec3, normal: Vec3, light: Light, sqrt: real -> real)
    requires IsSqrt(sqrt)
    requires light.directionFrom(hit) != Zero
    requires Dot(normal, light.directionFrom(hit)) <= 0.0 && 0.0 <= light.intensityAt(hit)
    ensures ShadeLight(models, albedo, hit, normal, light, sqrt) == Success(Black)
  {
    PowerVanishes(normal, light.directionFrom(hit), 0.0);
    PowerVanishes(normal, light.directionFrom(hit), light.intensityAt(hit));
  }

  /** The values of `rs` in order when every one succeeds; otherwise the first failure. */
  function CollectAll<T, E>(rs: seq<Result<T, E>>): (r: Result<seq<T>, E>)
    ensures r.Failure? <==> exists i :: 0 <= i < |rs| && rs[i].Failure?
    ensures r.Failure? ==> exists i :: 0 <= i < |rs| && rs[i] == Failure(r.error)
    ensures r.Success? ==> |r.value| == |rs| && forall i :: 0 <= i < |rs| ==> rs[i] == Success(r.value[i])
  {
    if |rs| == 0 then Success([])
    else if rs[0].Failure? then Failure(rs[0].error)
    else
      var rest := CollectAll(rs[1..]);
      assert forall i :: 1 <= i < |rs| ==> rs[i] == rs[1..][i - 1];
      if rest.Failure? then Failure(rest.error) else Success([rs[0].value] + rest.value)
  }

  /** Each light's contribution, in the order of `lights`. */
  function LightResults(models: seq<Model>, albedo: real, hit: Vec3, normal: Vec3, lights: seq<Light>, sqrt: real -> real)
    : (rs: seq<Result<Color, RenderError>>)
    requires IsSqrt(sqrt)
    ensures |rs| == |lights|
    ensures forall i :: 0 <= i < |lights| ==> (rs[i].Failure? <==> lights[i].directionFrom(hit) == Zero)
    ensures forall i :: 0 <= i < |lights| ==> rs[i].Failure? ==> rs[i].error == ZeroVector
  {
    seq(|lights|, i requires 0 <= i < |lights| => ShadeLight(models, albedo, hit, normal, lights[i], sqrt))
  }

  /** The light colours of `lights`, in order, failing if any light fails. */
  function ShadeLights(models: seq<Model>, albedo: real, hit: Vec3, normal: Vec3, lights: seq<Light>, sqrt: real -> real)
    : (r: Result<seq<Color>, RenderError>)
    requires IsSqrt(sqrt)
    ensures r.Success? ==> |r.value| == |lights|
    ensures r.Failure? ==> r.error == ZeroVector
  {
    CollectAll(LightResults(models, albedo, hit, normal, lights, sqrt))
  }

  /** Shading fails exactly when some light's direction from the hit point is the zero vector. */
  lemma ShadeLightsFailure(models: seq<Model>, albedo: real, hit: Vec3, normal: Vec3, lights: seq<Light>, sqrt: real -> real)
    requires IsSqrt(sqrt)
    ensures ShadeLights(models, albedo, hit, normal, lights, sqrt).Failure?
        <==> exists i :: 0 <= i < |lights| && lights[i].directionFrom(hit) == Zero
  {
    var rs := LightResults(models, albedo, hit, normal, lights, sqrt);
    var r := CollectAll(rs);
    assert ShadeLights(models, albedo, hit, normal, lights, sqrt) == r;
    if r.Failure? {
      var i :| 0 <= i < |rs| && rs[i].Failure?;
      assert lights[i].directionFrom(hit) == Zero;
    } else {
      forall i | 0 <= i < |lights|
        ensures lights[i].directionFrom(hit) != Zero
      {
        assert rs[i].Success?;
      }
    }
  }

  /** Where shading succeeds, entry `i` is light `i`'s own contribution. */
  lemma ShadeLightsElement(models: seq<Model>, albedo: real, hit: Vec3, normal: Vec3, lights: seq<Light>, sqrt: real -> real, i: int)
    requires IsSqrt(sqrt)
    requires 0 <= i < |lights|
    requires ShadeLights(models, albedo, hit, normal, lights, sqrt).Success?
    ensures ShadeLight(models, albedo, hit, normal, lights[i], sqrt)
         == Success(ShadeLights(models, albedo, hit, normal, lights, sqrt).value[i])
  {
    var rs := LightResults(models, albedo, hit, normal, lights, sqrt);
    assert rs[i] == ShadeLight(models, albedo, hit, normal, lights[i], sqrt);
  }

  // ---------------------------------------------------------------------
  // Pixels
  // ---------------------------------------------------------------------

  /**
   * What `render` paints at a pixel: nothing (the background shows), the
   * flat material colour of the closest model when there are no lights, or
   * one colour per light.
   */
  datatype Fill = Background | Flat(color: Color) | Lit(lightColors: seq<Color>)

  /** The body of `render`'s pixel loop for pixel `(x, y)`. */
  function Pixel(scene: Scene, x: int, y: int, sqrt: real -> real): (r: Result<Fill, RenderError>)
    requires IsSqrt(sqrt)
    requires 0 <= x < scene.width && 0 <= y < scene.height
    ensures r == Success(Background) <==>
      forall i :: 0 <= i < |scene.models| ==> ModelIntersection(scene.models[i], CameraRay(scene, x, y, sqrt), sqrt).None?
    ensures r.Success? && r.value.Lit? ==> 0 < |scene.lights| == |r.value.lightColors|
  {
    var ray := CameraRay(scene, x, y, sqrt);
    match ClosestIntersection(scene.models, ray, sqrt)
    case None => Success(Background)
    case Some(hit) =>
      var model := scene.models[hit.index];
      if |scene.lights| == 0 then
        Success(Flat(ModelMaterial(model).color))
      else
        ShadeHit(scene, model, At(ray, hit.distance), sqrt)
  }

  /**
   * The lit branch of the pixel loop: the surface normal at the hit point,
   * then the colour of every light. Light 0 is normalised (lib/scene.rb:64)
   * before a sphere's texture lookup can raise (lib/scene.rb:77).
   */
  function ShadeHit(scene: Scene, model: Model, hitPoint: Vec3, sqrt: real -> real): (r: Result<Fill, RenderError>)
    requires IsSqrt(sqrt)
    requires 0 < |scene.lights|
    ensures r.Success? ==> r.value.Lit? && |r.value.lightColors| == |scene.lights|
    ensures r == Failure(TextureDomain) <==>
      && ModelSurfaceNormal(model, hitPoint, sqrt).Some?
      && TextureRaises(model, hitPoint)
      && scene.lights[0].directionFrom(hitPoint) != Zero
  {
    match ModelSurfaceNormal(model, hitPoint, sqrt)
    case None => Failure(ZeroVector)
    case Some(normal) =>
      if TextureRaises(model, hitPoint) && scene.lights[0].directionFrom(hitPoint) != Zero then
        Failure(TextureDomain)
      else
        match ShadeLights(scene.models, ModelMaterial(model).albedo, hitPoint, normal, scene.lights, sqrt)
        case Failure(e) => Failure(e)
        case Success(colors) => Success(Lit(colors))
  }

  /**
   * A lit pixel whose closest model is a sphere aborts the render at the
   * texture lookup exactly when that lookup's argument is out of range and
   * the first light has already been normalised.
   */
  lemma TextureDomainFailure(scene: Scene, x: int, y: int, sqrt: real -> real)
    requires IsSqrt(sqrt)
    requires 0 <= x < scene.width && 0 <= y < scene.height
    requires 0 < |scene.lights|
    requires ClosestIntersection(scene.models, CameraRay(scene, x, y, sqrt), sqrt).Some?
    ensures var ray := CameraRay(scene, x, y, sqrt);
      var hit := ClosestIntersection(scene.models, ray, sqrt).value;
      var model := scene.models[hit.index];
      var hitPoint := At(ray, hit.distance);
      Pixel(scene, x, y, sqrt) == Failure(TextureDomain) <==>
        && ModelSurfaceNormal(model, hitPoint, sqrt).Some?
        && TextureRaises(model, hitPoint)
        && scene.lights[0].directionFrom(hitPoint) != Zero
  {
  }

  /** Without lights, a pixel that sees a model takes the flat colour of the closest one. */
  lemma UnlitSceneIsFlat(scene: Scene, x: int, y: int, sqrt: real -> real)
    requires IsSqrt(sqrt)
    requires 0 <= x < scene.width && 0 <= y < scene.height
    requires |scene.lights| == 0
    requires ClosestIntersection(scene.models, CameraRay(scene, x, y, sqrt), sqrt).Some?
    ensures var hit := ClosestIntersection(scene.models, CameraRay(scene, x, y, sqrt), sqrt).value;
      Pixel(scene, x, y, sqrt) == Success(Flat(ModelMaterial(scene.models[hit.index]).color))
  {
  }

  /**
   * In a lit scene a pixel that sees a model, with a defined normal and no
   * light in a degenerate direction, gets one colour per light: colour `i`
   * is light `i`'s own contribution at the closest hit point.
   */
  lemma LitPixel(scene: Scene, x: int, y: int, sqrt: real -> real, i: int)
    requires IsSqrt(sqrt)
    requires 0 <= x < scene.width && 0 <= y < scene.height
    requires 0 <= i < |scene.lights|
    requires Pixel(scene, x, y, sqrt).Success? && !Pixel(scene, x, y, sqrt).value.Background?
    ensures var ray := CameraRay(scene, x, y, sqrt);
      var hit := ClosestIntersection(scene.models, ray, sqrt).value;
      var model := scene.models[hit.index];
      var hitPoint := At(ray, hit.distance);
      var normal := ModelSurfaceNormal(model, hitPoint, sqrt).value;
      && Pixel(scene, x, y, sqrt).value.Lit?
      && ShadeLight(scene.models, ModelMaterial(model).albedo, hitPoint, normal, scene.lights[i], sqrt)
           == Success(Pixel(scene, x, y, sqrt).value.lightColors[i])
  {
    var ray := CameraRay(scene, x, y, sqrt);
    var closest := ClosestIntersection(scene.models, ray, sqrt);
    assert closest.Some?;
    var hit := closest.value;
    var model := scene.models[hit.index];
    var hitPoint := At(ray, hit.distance);
    var normal := ModelSurfaceNormal(model, hitPoint, sqrt);
    assert normal.Some?;
    var shaded := ShadeLights(scene.models, ModelMaterial(model).albedo, hitPoint, normal.value, scene.lights, sqrt);
    assert shaded.Success?;
    assert Pixel(scene, x, y, sqrt) == Success(Lit(shaded.value));
    ShadeLightsElement(scene.models, ModelMaterial(model).albedo, hitPoint, normal.value, scene.lights, sqrt, i);
  }
}

=== FILE: spheres.dfy ===
/**
 * Spheres: ray intersection by the right-triangle construction, and the
 * outward surface normal.
 *
 * Intersection distances are the `t` of `At(ray, t)`; the geometric
 * statements about them assume a unit ray direction, which is what the
 * camera and shadow rays carry.
 */
module Spheres {
  import opened Wrappers
  import opened Vectors
  import opened Materials

  datatype Sphere = Sphere(origin: Vec3, radius: real, material: Material)

  /** `p` lies on the surface of `s`. */
  predicate OnSphere(s: Sphere, p: Vec3) {
    Dot(Sub(p, s.origin), Sub(p, s.origin)) == s.radius * s.radius
  }

  /** The unit-length directions. */
  predicate IsUnit(d: Vec3) {
    Dot(d, d) == 1.0
  }

  /**
   * The triangle `intersection_with` builds: `hyp` runs from the ray origin
   * to the centre, `adj` is its projection on the ray direction, `hh` is
   * `hyp·hyp`, and `radius2` the squared radius.
   */
  datatype Legs = Legs(adj: real, hh: real, radius2: real)

  function LegsOf(s: Sphere, ray: Ray): Legs {
    var hyp := Sub(s.origin, ray.origin);
    Legs(Dot(hyp, ray.direction), Dot(hyp, hyp), s.radius * s.radius)
  }

  /** `opp`: the squared distance from the centre to the ray's line. */
  function Opp(l: Legs): real {
    l.hh - l.adj * l.adj
  }

  /**
   * `intersection_with`: the line misses when `opp` exceeds the squared
   * radius; otherwise it meets the sphere at `adj - side3` and
   * `adj + side3`, and the smaller is returned unless both are negative.
   */
  function Intersection(s: Sphere, ray: Ray, sqrt: real -> real): (r: Option<real>)
    requires IsSqrt(sqrt)
    ensures r.Some? && IsUnit(ray.direction) ==> OnSphere(s, At(ray, r.value))
    ensures r.Some? && IsUnit(ray.direction) ==>
      forall t :: OnSphere(s, At(ray, t)) ==> r.value <= t
  {
    var l := LegsOf(s, ray);
    var r := NearestRoot(l.adj, Opp(l), l.radius2, sqrt);
    assert r.Some? && IsUnit(ray.direction) ==>
      OnSphere(s, At(ray, r.value)) && forall t :: OnSphere(s, At(ray, t)) ==> r.value <= t by {
      if r.Some? && IsUnit(ray.direction) {
        RootsOnSphere(s, ray, sqrt(l.radius2 - Opp(l)));
      }
    }
    r
  }

  /**
   * The arithmetic of `intersection_with` once `adj`, `opp` and the squared
   * radius are known: no root when `opp` exceeds the squared radius, none
   * when both `adj - side3` and `adj + side3` are negative, else the smaller.
   */
  function NearestRoot(adj: real, opp: real, radius2: real, sqrt: real -> real): (r: Option<real>)
    requires IsSqrt(sqrt)
    ensures r.Some? <==> opp <= radius2 && 0.0 <= adj + sqrt(radius2 - opp)
    ensures r.Some? ==> r.value == adj - sqrt(radius2 - opp)
  {
    if opp > radius2 then None
    else
      var side3 := sqrt(radius2 - opp);
      var t0 := adj - side3;
      var t1 := adj + side3;
      if t0 < 0.0 && t1 < 0.0 then None
      else Some(if t0 < t1 then t0 else t1)
  }

  /** The squared distance from `c` to the point at `t` along the ray, as a polynomial in `t`. */
  lemma DistanceAlong(ray: Ray, c: Vec3, t: real)
    ensures var p := Sub(At(ray, t), c);
      var h := Sub(c, ray.origin);
      Dot(p, p) == t * t * Dot(ray.direction, ray.direction) - 2.0 * t * Dot(h, ray.direction) + Dot(h, h)
  {
    var d := ray.direction;
    var h := Sub(c, ray.origin);
    var a := Scale(t, d);
    assert Sub(At(ray, t), c) == Sub(a, h);
    DotOfDifference(a, h);
    DotScaleLeft(t, d, a);
    DotSymmetric(d, a);
    DotScaleLeft(t, d, d);
    DotScaleLeft(t, d, h);
    DotSymmetric(d, h);
    ExpandSquareTerms(t, Dot(d, d), Dot(h, d));
  }

  // ExpandSquareTerms, DotOfDifference, SquareOfDifference and UnitLeading take plain
  // values so that each nonlinear step is proved without the vector definitions in scope.

  /** The scalar step of `DistanceAlong`: regrouping the products of `t`. */
  lemma ExpandSquareTerms(t: real, dd: real, hd: real)
    ensures t * (t * dd) == t * t * dd
    ensures 2.0 * (t * hd) == 2.0 * t * hd
  {
  }

  /** `(a - b)·(a - b) = a·a - 2 a·b + b·b`. */
  lemma DotOfDifference(a: Vec3, b: Vec3)
    ensures Dot(Sub(a, b), Sub(a, b)) == Dot(a, a) - 2.0 * Dot(a, b) + Dot(b, b)
  {
    SquareOfDifference(a.x, b.x);
    SquareOfDifference(a.y, b.y);
    SquareOfDifference(a.z, b.z);
  }

  lemma SquareOfDifference(a: real, b: real)
    ensures (a - b) * (a - b) == a * a - 2.0 * (a * b) + b * b
  {
  }

  /** With a unit direction the leading coefficient of the distance polynomial is one. */
  lemma UnitLeading(t: real, dd: real, hd: real, hh: real, pp: real)
    requires dd == 1.0 && pp == t * t * dd - 2.0 * t * hd + hh
    ensures pp == t * t - 2.0 * t * hd + hh
  {
  }

  /** Two reals with equal squares are equal up to sign. */
  lemma SquareRoots(x: real, y: real)
    requires 0.0 <= y && x * x == y * y
    ensures x == y || x == -y
  {
    if 0.0 <= x {
      if x < y {
        SquareLess(x, y);
      } else if y < x {
        SquareLess(y, x);
      }
    } else {
      assert (-x) * (-x) == x * x;
      if -x < y {
        SquareLess(-x, y);
      } else if y < -x {
        SquareLess(y, -x);
      }
    }
  }

  /**
   * The squared distance from the centre to the point at `t`, for a unit
   * direction: `t² - 2·t·adj + hh`.
   */
  function Quadratic(t: real, l: Legs): real {
    t * t - 2.0 * t * l.adj + l.hh
  }

  /** `t` solves the sphere's quadratic exactly when it is `adj` plus or minus `side`. */
  lemma QuadraticRoots(t: real, l: Legs, side: real)
    requires 0.0 <= side && side * side == l.radius2 - Opp(l)
    ensures Quadratic(t, l) == l.radius2 <==> t == l.adj - side || t == l.adj + side
  {
    assert Quadratic(t, l) - l.radius2 == (t - l.adj) * (t - l.adj) - side * side;
    if Quadratic(t, l) == l.radius2 {
      SquareRoots(t - l.adj, side);
    }
  }

  /** When the line passes farther from the centre than the radius, the quadratic has no root. */
  lemma NoRootsWhenFar(t: real, l: Legs)
    requires Opp(l) > l.radius2
    ensures Quadratic(t, l) != l.radius2
  {
    assert Quadratic(t, l) == (t - l.adj) * (t - l.adj) + Opp(l);
    assert 0.0 <= (t - l.adj) * (t - l.adj);
  }

  /** For a unit direction, the point at `t` is on the sphere exactly when `t` solves the quadratic. */
  lemma OnSphereAt(s: Sphere, ray: Ray, t: real)
    requires IsUnit(ray.direction)
    ensures OnSphere(s, At(ray, t)) <==> Quadratic(t, LegsOf(s, ray)) == LegsOf(s, ray).radius2
  {
    DistanceQuadratic(s, ray, t);
  }

  /** For a unit direction the squared distance from the centre to the point at `t` is the quadratic in `t`. */
  lemma DistanceQuadratic(s: Sphere, ray: Ray, t: real)
    requires IsUnit(ray.direction)
    ensures var p := Sub(At(ray, t), s.origin);
      Dot(p, p) == Quadratic(t, LegsOf(s, ray))
  {
    var d := ray.direction;
    var h := Sub(s.origin, ray.origin);
    var p := Sub(At(ray, t), s.origin);
    DistanceAlong(ray, s.origin, t);
    UnitLeading(t, Dot(d, d), Dot(h, d), Dot(h, h), Dot(p, p));
  }

  /**
   * For a unit direction, the points of the ray's line on the sphere are
   * exactly those at `adj - side` and `adj + side`, where `side` is the
   * square root `intersection_with` takes.
   */
  lemma RootsOnSphere(s: Sphere, ray: Ray, side: real)
    requires IsUnit(ray.direction)
    requires var l := LegsOf(s, ray);
      0.0 <= side && side * side == l.radius2 - Opp(l)
    ensures var l := LegsOf(s, ray);
      forall t :: OnSphere(s, At(ray, t)) <==> t == l.adj - side || t == l.adj + side
  {
    forall t
      ensures OnSphere(s, At(ray, t)) <==> t == LegsOf(s, ray).adj - side || t == LegsOf(s, ray).adj + side
    {
      OnSphereAt(s, ray, t);
      QuadraticRoots(t, LegsOf(s, ray), side);
    }
  }

  /** For a unit direction the ray meets the sphere at some `t >= 0` exactly when a distance is returned. */
  lemma HitIffForwardPoint(s: Sphere, ray: Ray, sqrt: real -> real)
    requires IsSqrt(sqrt) && IsUnit(ray.direction)
    ensures Intersection(s, ray, sqrt).Some? <==> exists t :: 0.0 <= t && OnSphere(s, At(ray, t))
  {
    var l := LegsOf(s, ray);
    if Opp(l) <= l.radius2 {
      var side3 := sqrt(l.radius2 - Opp(l));
      RootsOnSphere(s, ray, side3);
      if Intersection(s, ray, sqrt).Some? {
        assert 0.0 <= l.adj + side3 && OnSphere(s, At(ray, l.adj + side3));
      }
      if exists t :: 0.0 <= t && OnSphere(s, At(ray, t)) {
        var t :| 0.0 <= t && OnSphere(s, At(ray, t));
        assert t <= l.adj + side3;
      }
    } else {
      forall t | OnSphere(s, At(ray, t))
        ensures false
      {
        OnSphereAt(s, ray, t);
        NoRootsWhenFar(t, l);
      }
    }
  }

  /**
   * As written, a ray starting strictly inside the sphere gets the root
   * behind it: the returned distance is negative.
   */
  lemma InsideGivesNegative(s: Sphere, ray: Ray, sqrt: real -> real)
    requires IsSqrt(sqrt) && IsUnit(ray.direction)
    requires OnSphereInside(s, ray.origin)
    ensures Intersection(s, ray, sqrt).Some?
    ensures Intersection(s, ray, sqrt).value < 0.0
  {
    var l := LegsOf(s, ray);
    var side3 := sqrt(l.radius2 - Opp(l));
    assert Sub(ray.origin, s.origin) == Neg(Sub(s.origin, ray.origin));
    assert l.hh < l.radius2;
    assert l.adj * l.adj < side3 * side3;
    assert l.adj - side3 < 0.0 <= l.adj + side3 by {
      if side3 < l.adj {
        SquareLess(side3, l.adj);
      } else if side3 < -l.adj {
        SquareLess(side3, -l.adj);
      }
    }
  }

  /**
   * A ray from outside the sphere aimed straight at its centre hits it at
   * the distance from the ray origin to the centre, less the radius.
   */
  lemma AimedAtCentre(s: Sphere, ray: Ray, sqrt: real -> real)
    requires IsSqrt(sqrt)
    requires Normalize(Sub(s.origin, ray.origin), sqrt) == Some(ray.direction)
    requires 0.0 <= s.radius < Magnitude(Sub(s.origin, ray.origin), sqrt)
    ensures Intersection(s, ray, sqrt) == Some(Magnitude(Sub(s.origin, ray.origin), sqrt) - s.radius)
  {
    var hyp := Sub(s.origin, ray.origin);
    var l := LegsOf(s, ray);
    var len := Magnitude(hyp, sqrt);
    assert l.adj == len && Opp(l) == 0.0 by {
      AdjacentIsDistance(hyp, ray.direction, len);
    }
    assert sqrt(l.radius2 - Opp(l)) == s.radius by {
      var r := s.radius;
      var x := l.radius2 - Opp(l);
      assert x == r * r;
      SqrtOfSquare(sqrt, r);
      assert sqrt(r * r) == r;
      assert sqrt(x) == sqrt(r * r);
    }
    assert Intersection(s, ray, sqrt) == NearestRoot(l.adj, Opp(l), l.radius2, sqrt);
  }

  /**
   * When `d` is `hyp` scaled to unit length, the projection `hyp·d` is the
   * length of `hyp`.
   */
  lemma AdjacentIsDistance(hyp: Vec3, d: Vec3, len: real)
    requires 0.0 < len && len * len == Dot(hyp, hyp)
    requires IsUnit(d) && exists k: real :: 0.0 < k && d == Scale(k, hyp)
    ensures Dot(hyp, d) == len
  {
    var k: real :| 0.0 < k && d == Scale(k, hyp);
    var hh := Dot(hyp, hyp);
    DotScaleLeft(k, hyp, hyp);
    DotSymmetric(hyp, d);
    assert Dot(hyp, d) == k * hh;
    DotScaleLeft(k, hyp, d);
    assert 1.0 == k * Dot(hyp, d);
    assert 0.0 < hh;
    var adj := Dot(hyp, d);
    assert 0.0 < adj;
    calc {
      adj * adj;
      (k * hh) * adj;
      hh * (k * adj);
      { assert k * adj == 1.0; }
      hh * 1.0;
      hh;
      len * len;
    }
    SquareRoots(adj, len);
  }

  /** `p` lies strictly inside `s`. */
  predicate OnSphereInside(s: Sphere, p: Vec3) {
    Dot(Sub(p, s.origin), Sub(p, s.origin)) < s.radius * s.radius
  }

  /** `surface_normal`: the unit vector from the centre through the hit point. */
  function SurfaceNormal(s: Sphere, hit: Vec3, sqrt: real -> real): (n: Option<Vec3>)
    requires IsSqrt(sqrt)
    ensures n.None? <==> hit == s.origin
    ensures n.Some? ==> IsUnit(n.value)
  {
    Normalize(Sub(hit, s.origin), sqrt)
  }

  /** On the surface of a sphere of positive radius the normal is the radius vector divided by the radius. */
  lemma NormalOnSurface(s: Sphere, hit: Vec3, sqrt: real -> real)
    requires IsSqrt(sqrt) && 0.0 < s.radius && OnSphere(s, hit)
    ensures SurfaceNormal(s, hit, sqrt) == Some(Scale(1.0 / s.radius, Sub(hit, s.origin)))
  {
    var v := Sub(hit, s.origin);
    SqrtOfSquare(sqrt, s.radius);
    assert Magnitude(v, sqrt) == s.radius;
  }

  /**
   * The argument `texture_coordinates` hands to `Math.acos`: the hit
   * point's height above the centre minus the radius. It is not divided by
   * the radius.
   */
  function LatitudeArgument(s: Sphere, hit: Vec3): real {
    hit.y - s.origin.y - s.radius
  }

  /** `Math.acos` raises `Math::DomainError` for an argument outside `[-1, 1]`. */
  predicate TextureRaises(s: Sphere, hit: Vec3) {
    LatitudeArgument(s, hit) < -1.0 || 1.0 < LatitudeArgument(s, hit)
  }

  /**
   * On the surface the argument is never positive, so the texture lookup
   * raises exactly at the points lower than `radius - 1` above the centre.
   */
  lemma TextureRaisesBelow(s: Sphere, hit: Vec3)
    requires 0.0 <= s.radius && OnSphere(s, hit)
    ensures LatitudeArgument(s, hit) <= 0.0
    ensures TextureRaises(s, hit) <==> hit.y - s.origin.y < s.radius - 1.0
  {
    var p := Sub(hit, s.origin);
    assert p.y * p.y <= s.radius * s.radius by {
      assert 0.0 <= p.x * p.x && 0.0 <= p.z * p.z;
    }
    if s.radius < p.y {
      SquareLess(s.radius, p.y);
    }
  }

  /** The bottom of the unit sphere is such a point: its argument is -2. */
  lemma UnitSphereBottomRaises(m: Material)
    ensures OnSphere(Sphere(Zero, 1.0, m), Vec3(0.0, -1.0, 0.0))
    ensures LatitudeArgument(Sphere(Zero, 1.0, m), Vec3(0.0, -1.0, 0.0)) == -2.0
    ensures TextureRaises(Sphere(Zero, 1.0, m), Vec3(0.0, -1.0, 0.0))
  {
  }
}

=== FILE: vectors.dfy ===
/**
 * Three-component vectors and rays. The renderer uses Ruby's `Vector` (from
 * the standard `matrix` library) for both points and directions
 * (`Point = Vector`, lib/base.rb:2) and a `Ray` struct of origin and direction
 * (lib/base.rb:16). Floats are modelled as exact reals.
 *
 * `Math.sqrt` is a foreign call; it enters the model as a function-valued
 * parameter `sqrt` that every caller constrains with `IsSqrt`.
 */
module Vectors {
  import opened Wrappers

  datatype Vec3 = Vec3(x: real, y: real, z: real)

  const Zero: Vec3 := Vec3(0.0, 0.0, 0.0)

  function Add(a: Vec3, b: Vec3): Vec3 {
    Vec3(a.x + b.x, a.y + b.y, a.z + b.z)
  }

  function Sub(a: Vec3, b: Vec3): Vec3 {
    Vec3(a.x - b.x, a.y - b.y, a.z - b.z)
  }

  function Neg(a: Vec3): Vec3 {
    Vec3(-a.x, -a.y, -a.z)
  }

  function Scale(k: real, a: Vec3): Vec3 {
    Vec3(k * a.x, k * a.y, k * a.z)
  }

  function Dot(a: Vec3, b: Vec3): real {
    a.x * b.x + a.y * b.y + a.z * b.z
  }

  function Cross(a: Vec3, b: Vec3): Vec3 {
    Vec3(a.y * b.z - a.z * b.y, a.z * b.x - a.x * b.z, a.x * b.y - a.y * b.x)
  }

  /** `sqrt` behaves as the non-negative square root on non-negative reals. */
  ghost predicate IsSqrt(sqrt: real -> real) {
    forall x :: 0.0 <= x ==> 0.0 <= sqrt(x) && sqrt(x) * sqrt(x) == x
  }

  lemma SquareLess(s: real, r: real)
    requires 0.0 <= s < r
    ensures s * s < r * r
  {
    calc {
      s * s;
    <= s * r;
    <  r * r;
    }
  }

  /** The square root of a square is the (non-negative) base. */
  lemma SqrtOfSquare(sqrt: real -> real, r: real)
    requires IsSqrt(sqrt)
    requires 0.0 <= r
    ensures sqrt(r * r) == r
  {
    var s := sqrt(r * r);
    assert 0.0 <= s && s * s == r * r;
    if s < r {
      SquareLess(s, r);
    } else if r < s {
      SquareLess(r, s);
    }
  }

  lemma SqrtPositive(sqrt: real -> real, x: real)
    requires IsSqrt(sqrt)
    requires 0.0 < x
    ensures 0.0 < sqrt(x)
  {
    var s := sqrt(x);
    assert 0.0 <= s && s * s == x;
  }

  /** The squared length is non-negative, and positive off the zero vector. */
  lemma DotSelf(v: Vec3)
    ensures 0.0 <= Dot(v, v)
    ensures v != Zero ==> 0.0 < Dot(v, v)
  {
    calc {
      Dot(v, v);
      v.x * v.x + v.y * v.y + v.z * v.z;
    >= v.y * v.y + v.z * v.z;
    >= v.z * v.z;
    >= 0.0;
    }
    if v.x != 0.0 {
      calc {
        Dot(v, v);
        v.x * v.x + v.y * v.y + v.z * v.z;
      >= v.x * v.x + v.z * v.z;
      >= v.x * v.x;
      > 0.0;
      }
    } else if v.y != 0.0 {
      calc {
        Dot(v, v);
        v.x * v.x + v.y * v.y + v.z * v.z;
      >= v.y * v.y + v.z * v.z;
      >= v.y * v.y;
      > 0.0;
      }
    } else if v.z != 0.0 {
      calc {
        Dot(v, v);
        v.x * v.x + v.y * v.y + v.z * v.z;
      >= v.z * v.z;
      > 0.0;
      }
    }
  }

  /** `Vector#magnitude`. */
  function Magnitude(v: Vec3, sqrt: real -> real): (m: real)
    requires IsSqrt(sqrt)
    ensures 0.0 <= m && m * m == Dot(v, v)
    ensures m == 0.0 <==> v == Zero
  {
    DotSelf(v);
    var m := sqrt(Dot(v, v));
    assert 0.0 <= m && m * m == Dot(v, v);
    assert m == 0.0 <==> v == Zero by {
      if v == Zero {
        SqrtOfSquare(sqrt, 0.0);
      } else {
        SqrtPositive(sqrt, Dot(v, v));
      }
    }
    m
  }

  /**
   * `Vector#normalize`: the vector divided by its magnitude; Ruby raises
   * `ZeroVectorError` for the zero vector, modelled as `None`.
   */
  function Normalize(v: Vec3, sqrt: real -> real): (r: Option<Vec3>)
    requires IsSqrt(sqrt)
    ensures r.None? <==> v == Zero
    ensures r.Some? ==> Dot(r.value, r.value) == 1.0
    ensures r.Some? ==> exists k: real :: 0.0 < k && r.value == Scale(k, v)
  {
    var m := Magnitude(v, sqrt);
    if m == 0.0 then None else Some(Divide(v, m))
  }

  /** `v / m` for the magnitude `m` of a non-zero `v`. */
  function Divide(v: Vec3, m: real): (u: Vec3)
    requires 0.0 < m && m * m == Dot(v, v)
    ensures Dot(u, u) == 1.0
    ensures exists k: real :: 0.0 < k && u == Scale(k, v)
  {
    var k := 1.0 / m;
    UnitScale(v, m, k);
    Scale(k, v)
  }

  /** Scaling by the reciprocal of the magnitude gives a unit vector. */
  lemma UnitScale(v: Vec3, m: real, k: real)
    requires 0.0 < m && m * m == Dot(v, v)
    requires k == 1.0 / m
    ensures 0.0 < k
    ensures Dot(Scale(k, v), Scale(k, v)) == 1.0
  {
    assert k * m == 1.0;
    calc {
      Dot(Scale(k, v), Scale(k, v));
      (k * v.x) * (k * v.x) + (k * v.y) * (k * v.y) + (k * v.z) * (k * v.z);
      (k * k) * Dot(v, v);
      (k * k) * (m * m);
      (k * m) * (k * m);
      1.0;
    }
  }

  datatype Ray = Ray(origin: Vec3, direction: Vec3)

  /** The point `origin + direction * t` reached after distance `t`. */
  function At(ray: Ray, t: real): Vec3 {
    Add(ray.origin, Scale(t, ray.direction))
  }

  lemma DotScaleLeft(k: real, a: Vec3, b: Vec3)
    ensures Dot(Scale(k, a), b) == k * Dot(a, b)
  {
  }

  lemma DotAddLeft(a: Vec3, b: Vec3, c: Vec3)
    ensures Dot(Add(a, b), c) == Dot(a, c) + Dot(b, c)
  {
  }

  lemma DotSymmetric(a: Vec3, b: Vec3)
    ensures Dot(a, b) == Dot(b, a)
  {
  }

  /** A cross product is perpendicular to both of its operands. */
  lemma CrossPerpendicular(a: Vec3, b: Vec3)
    ensures Dot(a, Cross(a, b)) == 0.0
    ensures Dot(b, Cross(a, b)) == 0.0
  {
  }
}

=== FILE: wrappers.dfy ===
/** Option and Result: Ruby's `nil` returns and raised exceptions, as values. */
module Wrappers {

  /** A value that may be absent; `None` stands for Ruby's `nil`. */
  datatype Option<+T> = None | Some(value: T)

  /** A value or the error that the Ruby code would have raised instead. */
  datatype Result<+T, +E> = Success(value: T) | Failure(error: E)
}
